=== FILE: README.md ===
# Collator and trainer bookkeeping of a Tacotron2/Mellotron training driver

This project is a Dafny model of two deterministic parts of a text-to-spectrogram
training driver:

- **The batch collator** (`Collate.__call__` in `uberduck_ml_dev/data/collate.py`).
  It takes a list of per-sample records and produces a padded batch. Each record
  may carry text tokens, a mel-spectrogram, an f0 contour, a speaker id, a style
  embedding (GST) and an audio encoding. The padded batch holds the true lengths
  and a stop ("gate") target. A field that the first sample lacks is `None` in the
  batch. Element values are only copied, so they are `int` here.
- **The trainer's bookkeeping** (`uberduck_ml_dev/trainer/base.py`). This covers:
  - the reduction-window scheduler (gradual training);
  - checkpoint save, gated to the primary process;
  - warm start, which accepts the legacy `state_dict` weights key;
  - the distributed start-up argument check;
  - the rank gate for logging and audio sampling;
  - the epoch loop's checkpoint cadence.

  The training step itself is foreign. Each epoch's effect (number of batches,
  resulting model and optimizer states) is a parameter `work`.

Files, one module each:

| file | module | models |
|---|---|---|
| `wrappers.dfy` | `Wrappers` | `Option` (Python `None`) and `Result` (raised errors) |
| `collate.dfy` | `Collate` | the collator |
| `trainer_state.dfy` | `TrainerState` | the trainer record, rank gate, `init_distributed`, `log`, `sample` |
| `reduction_window.dfy` | `ReductionWindow` | `adjust_frames_per_step` |
| `checkpoints.dfy` | `Checkpoints` | `save_checkpoint`, `warm_start` |
| `train_loop.dfy` | `TrainLoop` | the epoch loop of `train`, checkpoint names, round trip |

Modelling choices:

- The collator's constructor is the datatype `Collate.Collator`; its defaults
  (one frame per step, no transfer to the GPU) are `Collate.DefaultCollator`.
- The scheduler has two definitions: a functional reference `ReductionWindow.Adjust`,
  and the loop method `ReductionWindow.AdjustFramesPerStep`, proved equal to it.
  Rebuilding the loader is a counter, `loaderBuilds`, on the trainer record.
- The loop guard tests `until_step` for truthiness, and the model keeps that
  behaviour. Suppose the current entry has threshold 0 and the step is at least 0.
  Then the check passes, the loop does not run, and the loader is rebuilt without
  the index moving. This happens on every check (`ZeroThresholdRebuildsInPlace`).
- Indexing outside the schedule is an IndexError in the code, and a `Failure` here.
  This covers the entry index on arrival and, inside the loop, the incremented
  index when it passes the end.
- Line 89 of `collate.py` writes the gate target with the slice `[len - 1:]`. For a mel of zero
  frames that slice starts at -1, so only the last position of the row is set.
  The model keeps this (`GateStart`) instead of forbidding zero-length mels.
- Python's `%` floors and Dafny's is Euclidean. Both give 0 exactly on multiples
  of a non-zero divisor, so `epoch % epochs_per_checkpoint == 0` is modelled
  directly. A cadence of 0 raises ZeroDivisionError at that test, after the first
  epoch's batches have run. The model returns `ZeroDivision` there (`TrainLoop.RunEpochs`).
- The loss constructor (base.py:131-137) reads `self.pos_weight` before it has
  assigned it whenever the weight is not None. So any non-None `pos_weight` raises
  AttributeError before warm start and before any epoch, and only a `None`
  weight lets training start. `TrainLoop.NewLoss` and `TrainLoop.Train` model
  this as written; the evident intent is to store the weight as a tensor.
- A checkpoint written at the end of epoch e records `iteration = e`, and the
  loop resumes at `range(iteration, epochs)`. So resuming from `mellotron_e`
  trains epoch e a second time and rewrites its checkpoint
  (`TrainLoop.ResumeFromRunCheckpoint`, `TrainLoop.TrainCadence`).

## Model

| member | source | states |
|---|---|---|
| Collate.SetFramesPerStep | uberduck_ml_dev/data/collate.py:15-24 | the setter changes the frames-per-step value and keeps the device flag |
| Collate.CollateIgnoresFramesPerStep | uberduck_ml_dev/data/collate.py:27-113 | the collated batch is the same whatever frames-per-step is set; no rounding of lengths to a multiple of it |
| Collate.MaxLen | uberduck_ml_dev/data/collate.py:41-42 | the padded width is at least every sample's length and equal to one of them (0 for no samples) |
| Collate.Pad | uberduck_ml_dev/data/collate.py:96-98 | a padded row has the target width, copies the sample at positions below its length and is 0 after |
| Collate.PadRows | uberduck_ml_dev/data/collate.py:40-44 | every row is left-aligned in a zero-filled row of the batch's maximum length |
| Collate.CollateText | uberduck_ml_dev/data/collate.py:40-47 | input_lengths[i] is the length of sample i's tokens; text_padded is N x max length, row i starting with sample i's tokens and zero after |
| Collate.PadMel | uberduck_ml_dev/data/collate.py:86-88 | each channel of one mel is copied up to its frame count and zero up to the batch width |
| Collate.PadMels | uberduck_ml_dev/data/collate.py:49-52 | mel_padded is N x C x (longest mel), each sample left-aligned over zeros |
| Collate.GateRow | uberduck_ml_dev/data/collate.py:89 | gate values are 0 or 1; with len >= 1 a position is 1 iff it is at or after len - 1; with len 0 only the last position is 1 |
| Collate.GateRows | uberduck_ml_dev/data/collate.py:54-55 | one gate row per sample, sized to the longest mel |
| Collate.CollateMel | uberduck_ml_dev/data/collate.py:48-59 | output_lengths[i] is sample i's frame count; mel and gate are sized from the mels and hold each sample left-aligned |
| Collate.CollateF0 | uberduck_ml_dev/data/collate.py:65-70 | f0_padded is N x 1 x (longest f0), each contour left-aligned over zeros |
| Collate.CollateSpeakers | uberduck_ml_dev/data/collate.py:61-64 | speaker_ids[i] is sample i's speaker id |
| Collate.CollateGsts | uberduck_ml_dev/data/collate.py:71-76 | style embeddings are stacked in batch order |
| Collate.Flatten | uberduck_ml_dev/data/collate.py:78-81 | the concatenated audio encodings have the summed length of the inputs |
| Collate.FlattenSegment | uberduck_ml_dev/data/collate.py:80 | each input of the concatenation sits right after the inputs before it |
| Collate.Collate | uberduck_ml_dev/data/collate.py:27-113 | each output field is present iff the first sample has it; contents of text, mel, lengths, gate, f0, speaker ids, GSTs and audio encodings as above |
| Collate.TextRoundTrip | uberduck_ml_dev/data/collate.py:96-98 | truncating each padded text row to its recorded length gives back the sample's tokens |
| Collate.UnpadLeftAligned | uberduck_ml_dev/data/collate.py:41 | undoing left-aligned padding with the true lengths recovers the rows |
| Collate.MelRoundTrip | uberduck_ml_dev/data/collate.py:86-90 | truncating each padded mel channel to the recorded frame count gives back the sample's mel |
| Collate.GateTargetStops | uberduck_ml_dev/data/collate.py:89 | with at least one frame, gate[i][t] is 1 iff t >= len - 1 and 0 iff t < len - 1; len 1 gives gate[i][0] = 1; each row ends in 1 |
| Collate.MelIndependentOfOtherFields | uberduck_ml_dev/data/collate.py:48-68 | mel, gate and output lengths depend only on the mels, so the later f0 width cannot change them |
| Collate.TextIndependentOfOtherFields | uberduck_ml_dev/data/collate.py:40-47 | the text tensor and its lengths depend only on the token sequences |
| Collate.AudioEncodingsInBatchOrder | uberduck_ml_dev/data/collate.py:78-81 | in the batch's audio encoding, sample i's encoding follows those of samples 0..i-1 |
| TrainerState.InitDistributed | uberduck_ml_dev/trainer/base.py:56-69 | a no-op outside distributed runs; fails iff rank or world size is missing; otherwise joins with that rank and world size on the rank's device |
| TrainerState.Log | uberduck_ml_dev/trainer/base.py:89-99 | a non-primary process logs nothing; the primary logs one event per supplied payload under the tag and step, in the order audio, scalar, image, figure |
| TrainerState.SampleAudio | uberduck_ml_dev/trainer/base.py:101-109 | a non-primary process synthesises nothing; the primary synthesises from the given mel iff the algorithm is griffin-lim, else fails |
| ReductionWindow.Adjust | uberduck_ml_dev/trainer/base.py:317-334 | the reference scheduler check: it fails only with an IndexError at an index past the end of a non-empty schedule; on success it either changes nothing or lands on an entry inside the schedule with exactly one loader rebuild |
| ReductionWindow.FirstActive | uberduck_ml_dev/trainer/base.py:325-327 | the loop stops at the first entry from the cursor whose threshold is None, 0 or above the step, after every entry before it was exhausted; none means all are exhausted |
| ReductionWindow.AdjustFramesPerStep | uberduck_ml_dev/trainer/base.py:309-335 | the loop method computes exactly the reference scheduler check `Adjust` |
| ReductionWindow.AdjustNoOp | uberduck_ml_dev/trainer/base.py:317-323 | empty schedule, open-ended current entry or step below its threshold leave trainer and loader unchanged |
| ReductionWindow.AdjustMonotone | uberduck_ml_dev/trainer/base.py:319-333 | the index never decreases, the loader is rebuilt at most once per check, and only the scheduler's fields change |
| ReductionWindow.AdjustTransition | uberduck_ml_dev/trainer/base.py:324-334 | on a transition the new entry is the first one not exhausted, batch size and frames per step are that entry's, the loader is rebuilt exactly once, and the index strictly grows unless the threshold was 0 |
| ReductionWindow.AdjustStaysInBounds | uberduck_ml_dev/trainer/base.py:319-327 | from an index inside the schedule, with an open-ended last entry the check never fails and the index stays in the schedule |
| ReductionWindow.AdjustPastEndFails | uberduck_ml_dev/trainer/base.py:325-327 | when every remaining entry is exhausted the loop indexes past the end |
| ReductionWindow.AdjustIdempotent | uberduck_ml_dev/trainer/base.py:317-335 | checking again at the same step changes nothing unless the reached entry has threshold 0 |
| ReductionWindow.ZeroThresholdRebuildsInPlace | uberduck_ml_dev/trainer/base.py:320-334 | a current threshold of 0 installs the same entry again and rebuilds the loader without moving the index |
| ReductionWindow.TwoEntryScheduleExample | uberduck_ml_dev/trainer/base.py:317-334 | schedule [(2,64,1000),(1,32,None)]: step 999 no change; steps 1000 and 1500 switch to (1,32) with one rebuild |
| Checkpoints.JoinPath | uberduck_ml_dev/trainer/base.py:82-84 | the checkpoint path ends with the file name; unless the file name is absolute it starts with the directory and has at most one character between them, a '/' |
| Checkpoints.SaveCheckpoint | uberduck_ml_dev/trainer/base.py:71-84 | nothing is written iff the rank is set and not 0; otherwise the map has exactly the given keys, each holding the component's state if it has one and the raw value otherwise, at dir/name.pt |
| Checkpoints.WeightsKey | uberduck_ml_dev/trainer/base.py:481-483 | weights come from "model" when present, else "state_dict"; none iff neither is present |
| Checkpoints.WarmStart | uberduck_ml_dev/trainer/base.py:476-500 | fails with the "state_dict" KeyError iff no weights key; optimizer, start epoch, learning rate (trainer and optimizer group) and global step are each taken from the checkpoint iff present, else kept; nothing else changes |
| Checkpoints.LegacyWeightsKeyLoads | uberduck_ml_dev/trainer/base.py:481-483 | a checkpoint with only "state_dict" loads its weights and restores nothing else |
| Checkpoints.ModelKeyPreferred | uberduck_ml_dev/trainer/base.py:481-483 | with both keys present the weights come from "model" |
| Checkpoints.GlobalStepRestoredIndependently | uberduck_ml_dev/trainer/base.py:496-497 | adding a global step to a checkpoint changes only the restored global step |
| TrainLoop.NatToString | uberduck_ml_dev/trainer/base.py:590 | an epoch prints as at least one decimal digit, a single one exactly below 10, with no leading zero |
| TrainLoop.DecimalRoundTrip | uberduck_ml_dev/trainer/base.py:590 | reading the printed digits back gives the epoch |
| TrainLoop.IntToStringInjective | uberduck_ml_dev/trainer/base.py:590 | different integers print differently |
| TrainLoop.CheckpointNamesDistinct | uberduck_ml_dev/trainer/base.py:588-590 | different epochs save under different names, so no checkpoint of a run overwrites another |
| TrainLoop.CheckpointEpochs | uberduck_ml_dev/trainer/base.py:588 | the saving epochs are exactly those in range(start, epochs) divisible by epochs_per_checkpoint, in increasing order |
| TrainLoop.RunEpochs | uberduck_ml_dev/trainer/base.py:529-596 | the epoch loop: no epochs leave the trainer as it is and save nothing; it fails only with the scheduler's IndexError or, for a cadence of 0, with ZeroDivisionError once the first epoch's batches ran; it saves at most once per epoch (per-epoch effects, step count, cadence and contents in the lemmas below) |
| TrainLoop.RunStep | uberduck_ml_dev/trainer/base.py:529-596 | one epoch: the scheduler check, the global step advanced by the epoch's batches, then a save on the cadence on the primary process |
| TrainLoop.RunTrainer | uberduck_ml_dev/trainer/base.py:529-537 | a run keeps learning rate, rank and checkpoint directory and advances the global step by one per batch |
| TrainLoop.RunSaveEpochs | uberduck_ml_dev/trainer/base.py:588-596 | the primary process saves on exactly the cadence epochs, in order; other processes save nothing |
| TrainLoop.RunSaveContents | uberduck_ml_dev/trainer/base.py:588-596 | each saved checkpoint is mellotron_<epoch>.pt with that epoch's model and optimizer, iteration = epoch, the learning rate and the global step at the end of that epoch |
| TrainLoop.SavedContents | uberduck_ml_dev/trainer/base.py:589-596 | saving the loop's arguments stores exactly the five fields with states extracted |
| TrainLoop.WarmStartFromLoopCheckpoint | uberduck_ml_dev/trainer/base.py:481-497 | warm start from such a checkpoint succeeds and restores all five fields |
| TrainLoop.NewLoss | uberduck_ml_dev/trainer/base.py:131-137 | the loss constructor succeeds iff the gate weight is None and raises AttributeError for "pos_weight" otherwise |
| TrainLoop.Started | uberduck_ml_dev/trainer/base.py:520-523 | the loop starts from the trainer after the loader build and the warm start, if any; it fails iff that warm start fails, and otherwise starts at the checkpoint's iteration (0 when there is none) |
| TrainLoop.Train | uberduck_ml_dev/trainer/base.py:502-596 | failures in the order the code raises them: missing rank or world size in a distributed run, then any non-None pos_weight, then a warm start without a weights key (the "state_dict" KeyError), then, for a cold or warm start alike, a cadence of 0 after the first epoch; a run with an epoch to do succeeds only with a non-zero cadence |
| TrainLoop.TrainCadence | uberduck_ml_dev/trainer/base.py:520-529 | a run saves on the cadence epochs from the warm-started iteration (or 0) to the last epoch |
| TrainLoop.SaveThenWarmStart | uberduck_ml_dev/trainer/base.py:491-497 | save then warm start restores start epoch, global step, learning rate, weights and optimizer state |
| TrainLoop.ResumeFromRunCheckpoint | uberduck_ml_dev/trainer/base.py:588-596 | every checkpoint a run writes resumes at its epoch with that epoch's global step, learning rate, weights and optimizer state |

## Left out

- `Tacotron2Loss.forward`: floating-point MSE and BCE over tensors. Only the constructor's failure is modelled (`TrainLoop.NewLoss`).
- The training step: forward and backward passes, autocast and the gradient scaler, gradient clipping, Adam, DDP and the distributed loss reduction. These are foreign tensor code and collectives; each epoch's effect is the `work` parameter.
- `validate`: float loss averaging over a data loader. It needs at least one validation batch, since it divides by the step count. The debug-mode skip of validation goes with it.
- The contents of logging: `log_training`, `log_validation`, `sample_inference`, plotting, the summary writer, and the random sample choice. Only the rank gate (`Log`, `SampleAudio`) is kept.
- File and device I/O: `torch.save`, `torch.load` (`load_checkpoint`), directory creation, `init_process_group`, `set_device`, and the collator's `to_gpu`. A save is a returned `SavedCheckpoint` value; a load is a map passed in.
- `initialize_loader` and the datasets: a rebuild is the `loaderBuilds` counter. The sampler's `set_epoch` is not modelled.
- `TTSTrainer.__init__`: it copies configuration onto attributes and picks a device. The trainer record holds the fields that the modelled operations use.
- `model.set_current_frames_per_step` and `model.from_pretrained`: foreign model code. The model installs the weights as loaded; `ignore_layers` filtering is not modelled.
- Checkpoints.WarmStart: the optimizer's learning rate is a separate field, and it is set only from the checkpoint's `learning_rate`. In the code, `optimizer.load_state_dict` also restores the group's learning rate from the saved optimizer state. So with "optimizer" present and "learning_rate" absent, the model keeps the old rate where the code takes the saved one. Checkpoints this program writes always carry `learning_rate`, so the round-trip lemmas are unaffected.
- TrainLoop.RunEpochs: a failure does not return the trainer. When the cadence of 0 raises, the global step has already advanced by the epoch's batches, and that state is not observable in the model.
- Distributed runs: `from_pretrained` (base.py:484) and `set_current_frames_per_step` (base.py:332) are called on the DDP wrapper built at base.py:514, not on its `module`. Each loader rebuild also calls `init_distributed` again (base.py:334 to 465). As written, a distributed run can therefore fail at warm start and at its first scheduler transition, while `TrainLoop.Train` succeeds there. DDP and loader construction are foreign code and are not modelled.
- Collate.Collate: requires a non-empty batch; the code raises IndexError on an empty one.
- Collate.Collate: requires every field of the first sample to be present in every sample; the code raises KeyError otherwise.
- Collate.Collate: requires equal mel channel counts, and style embeddings of one length so that they stack. The code relies on tensor broadcasting and array stacking here.
- Collate.Collate: element values are integers, not floats; they are only copied.
- Collate.Collate: audio encodings are one-dimensional sequences; a multi-row encoding would be concatenated along its first axis in the same way.
- Checkpoints.WarmStart: returns `WrongType` when a field it reads holds a value of the wrong kind. The code would store such a value and fail later, or not at all.

=== FILE: checkpoints.dfy ===
/** Checkpoint save and warm start.  A checkpoint is a map from names to
    stored values; writing and reading the file are I/O and not modelled. */
module Checkpoints {
  import opened Wrappers
  import opened TrainerState

  /** A stored value: the state of a stateful component (parameter name to
      tensor), or a plain integer or float. */
  datatype Value = StateDict(entries: map<string, seq<int>>) | IntValue(i: int) | RealValue(r: real)

  /** An argument handed to save: either a component that exposes its state,
      or a plain value stored as it is. */
  datatype Argument = Stateful(state: map<string, seq<int>>) | Plain(value: Value)

  datatype SavedCheckpoint = SavedCheckpoint(path: string, contents: map<string, Value>)

  /** `os.path.join(dir, file)`: an absolute `file` replaces `dir`; otherwise
      a separator is inserted unless `dir` is empty or already ends in one. */
  function JoinPath(dir: string, file: string): (p: string)
    ensures |file| <= |p| && p[|p| - |file|..] == file
    ensures (|file| == 0 || file[0] != '/') ==> |dir| <= |p| && p[..|dir|] == dir
    ensures |p| <= |dir| + 1 + |file|
    ensures (|file| == 0 || file[0] != '/') && |p| != |dir| + |file| ==>
              |p| == |dir| + 1 + |file| && p[|dir|] == '/'
  {
    if |file| > 0 && file[0] == '/' then file
    else if |dir| == 0 || dir[|dir| - 1] == '/' then dir + file
    else dir + "/" + file
  }

  /** The value kept for one argument. */
  function Stored(a: Argument): Value
  {
    match a
    case Stateful(s) => StateDict(s)
    case Plain(v) => v
  }

  /** Saving: nothing on a non-primary process; otherwise a map with exactly
      the given names, each holding the component's state when it has one
      and the raw value otherwise, written to `<checkpoint dir>/<name>.pt`. */
  function SaveCheckpoint(t: Trainer, name: string, args: map<string, Argument>): (r: Option<SavedCheckpoint>)
    ensures r.None? <==> !IsPrimary(t.rank)
    ensures r.Some? ==> r.value.path == JoinPath(t.checkpointPath, name + ".pt")
    ensures r.Some? ==> r.value.contents.Keys == args.Keys
    ensures r.Some? ==> forall k :: k in args && args[k].Stateful? ==>
              r.value.contents[k] == StateDict(args[k].state)
    ensures r.Some? ==> forall k :: k in args && args[k].Plain? ==>
              r.value.contents[k] == args[k].value
  {
    if !IsPrimary(t.rank) then None
    else Some(SavedCheckpoint(JoinPath(t.checkpointPath, name + ".pt"),
                              map k | k in args :: Stored(args[k])))
  }

  /** The network: only its weights are visible here. */
  datatype Network = Network(weights: map<string, seq<int>>)

  /** The optimizer's state and the learning rate of its first parameter group. */
  datatype Optimizer = Optimizer(state: map<string, seq<int>>, lr: real)

  datatype WarmStarted = WarmStarted(trainer: Trainer, model: Network, optimizer: Optimizer, startEpoch: int)

  datatype CheckpointError = MissingKey(key: string) | WrongType(key: string)

  /** The key model weights are read from: "model" when present, else the
      older "state_dict"; None when neither is present. */
  function WeightsKey(ckpt: map<string, Value>): (k: Option<string>)
    ensures k.Some? ==> k.value in ckpt && (k.value == "model" || k.value == "state_dict")
    ensures k.None? <==> "model" !in ckpt && "state_dict" !in ckpt
    ensures "model" in ckpt ==> k == Some("model")
  {
    if "model" in ckpt then Some("model")
    else if "state_dict" in ckpt then Some("state_dict")
    else None
  }

  predicate HasStateDict(ckpt: map<string, Value>, key: string)
  {
    key !in ckpt || ckpt[key].StateDict?
  }

  predicate HasInt(ckpt: map<string, Value>, key: string)
  {
    key !in ckpt || ckpt[key].IntValue?
  }

  predicate HasReal(ckpt: map<string, Value>, key: string)
  {
    key !in ckpt || ckpt[key].RealValue?
  }

  /** Every field warm start reads holds a value of the kind it expects. */
  predicate WellTyped(ckpt: map<string, Value>)
  {
    && (WeightsKey(ckpt).Some? ==> ckpt[WeightsKey(ckpt).value].StateDict?)
    && HasStateDict(ckpt, "optimizer")
    && HasInt(ckpt, "iteration")
    && HasReal(ckpt, "learning_rate")
    && HasInt(ckpt, "global_step")
  }

  /** Warm start from a loaded checkpoint.  Weights must be found under one of
      the two key spellings (else the KeyError for "state_dict"); optimizer
      state, epoch counter, learning rate and global step are each restored
      only if present, independently of one another. */
  function WarmStart(t: Trainer, model: Network, optimizer: Optimizer, ckpt: map<string, Value>, startEpoch: int)
    : (r: Result<WarmStarted, CheckpointError>)
    ensures r.Success? <==> WeightsKey(ckpt).Some? && WellTyped(ckpt)
    ensures WeightsKey(ckpt).None? ==> r == Failure(MissingKey("state_dict"))
    ensures r.Success? && "model" in ckpt ==> r.value.model.weights == ckpt["model"].entries
    ensures r.Success? && "model" !in ckpt ==> r.value.model.weights == ckpt["state_dict"].entries
    ensures r.Success? ==>
              r.value.optimizer.state == (if "optimizer" in ckpt then ckpt["optimizer"].entries else optimizer.state)
    ensures r.Success? ==>
              r.value.startEpoch == (if "iteration" in ckpt then ckpt["iteration"].i else startEpoch)
    ensures r.Success? ==>
              && r.value.trainer.learningRate
                   == (if "learning_rate" in ckpt then ckpt["learning_rate"].r else t.learningRate)
              && r.value.optimizer.lr
                   == (if "learning_rate" in ckpt then ckpt["learning_rate"].r else optimizer.lr)
    ensures r.Success? ==>
              r.value.trainer.globalStep == (if "global_step" in ckpt then ckpt["global_step"].i else t.globalStep)
    ensures r.Success? ==>
              r.value.trainer == t.(learningRate := r.value.trainer.learningRate,
                                    globalStep := r.value.trainer.globalStep)
  {
    match WeightsKey(ckpt)
    case None => Failure(MissingKey("state_dict"))
    case Some(key) =>
      if !ckpt[key].StateDict? then Failure(WrongType(key))
      else if !HasStateDict(ckpt, "optimizer") then Failure(WrongType("optimizer"))
      else if !HasInt(ckpt, "iteration") then Failure(WrongType("iteration"))
      else if !HasReal(ckpt, "learning_rate") then Failure(WrongType("learning_rate"))
      else if !HasInt(ckpt, "global_step") then Failure(WrongType("global_step"))
      else
        var model' := Network(ckpt[key].entries);
        var optimizer1 :=
          if "optimizer" in ckpt then optimizer.(state := ckpt["optimizer"].entries) else optimizer;
        var startEpoch' := if "iteration" in ckpt then ckpt["iteration"].i else startEpoch;
        var optimizer' :=
          if "learning_rate" in ckpt then optimizer1.(lr := ckpt["learning_rate"].r) else optimizer1;
        var t1 := if "learning_rate" in ckpt then t.(learningRate := ckpt["learning_rate"].r) else t;
        var t' := if "global_step" in ckpt then t1.(globalStep := ckpt["global_step"].i) else t1;
        Success(WarmStarted(t', model', optimizer', startEpoch'))
  }

  // ---------------------------------------------------------------------
  // Properties

  /** Old-format checkpoints that only carry "state_dict" still load. */
  lemma LegacyWeightsKeyLoads(t: Trainer, model: Network, optimizer: Optimizer,
                              weights: map<string, seq<int>>, startEpoch: int)
    ensures var r := WarmStart(t, model, optimizer, map["state_dict" := StateDict(weights)], startEpoch);
            && r.Success?
            && r.value.model.weights == weights
            && r.value.optimizer == optimizer
            && r.value.startEpoch == startEpoch
            && r.value.trainer == t
  {
  }

  /** "model" wins over "state_dict" when both are present. */
  lemma ModelKeyPreferred(t: Trainer, model: Network, optimizer: Optimizer,
                          ckpt: map<string, Value>, startEpoch: int)
    requires "model" in ckpt && "state_dict" in ckpt
    requires WellTyped(ckpt)
    ensures var r := WarmStart(t, model, optimizer, ckpt, startEpoch);
            r.Success? && r.value.model.weights == ckpt["model"].entries
  {
  }

  /** Restoring one optional field does not depend on the others: adding the
      global step to a checkpoint changes only the restored global step. */
  lemma GlobalStepRestoredIndependently(t: Trainer, model: Network, optimizer: Optimizer,
                                        ckpt: map<string, Value>, step: int, startEpoch: int)
    requires WeightsKey(ckpt).Some? && WellTyped(ckpt)
    requires "global_step" !in ckpt
    ensures var r := WarmStart(t, model, optimizer, ckpt, startEpoch);
            var r' := WarmStart(t, model, optimizer, ckpt["global_step" := IntValue(step)], startEpoch);
            && r.Success? && r'.Success?
            && r'.value == r.value.(trainer := r.value.trainer.(globalStep := step))
  {
    var ckpt' := ckpt["global_step" := IntValue(step)];
    assert WeightsKey(ckpt') == WeightsKey(ckpt);
    assert WellTyped(ckpt');
  }
}

=== FILE: collate.dfy ===
/** The batch collator: turns a list of per-sample feature records into a
    padded, stacked batch.  Element values are only ever copied, so they are
    modelled as `int`. */
module Collate {
  import opened Wrappers

  /** A mel-spectrogram of `frames` time steps, one row per channel.  The frame
      count is kept apart from the rows so that a mel with no channels still
      has a length, as a tensor's `size(1)` does. */
  datatype Mel = Mel(frames: nat, channels: seq<seq<int>>)
  {
    predicate Valid() {
      forall c :: 0 <= c < |channels| ==> |channels[c]| == frames
    }
  }

  /** One training example; every field may be absent. */
  datatype Sample = Sample(
    text: Option<seq<int>>,
    mel: Option<Mel>,
    f0: Option<seq<int>>,
    speakerId: Option<int>,
    gst: Option<seq<int>>,
    audioEncoding: Option<seq<int>>)

  /** The collated batch.  `melPadded` and `f0` are N x channels x time,
      `textPadded` and `gateTarget` are N x time. */
  datatype Batch = Batch(
    textPadded: Option<seq<seq<int>>>,
    inputLengths: Option<seq<nat>>,
    melPadded: Option<seq<seq<seq<int>>>>,
    gateTarget: Option<seq<seq<int>>>,
    outputLengths: Option<seq<nat>>,
    speakerIds: Option<seq<int>>,
    audioEncodings: Option<seq<int>>,
    gst: Option<seq<seq<int>>>,
    f0: Option<seq<seq<seq<int>>>>)

  /** The collator's configuration, as set by its constructor. */
  datatype Collator = Collator(nFramesPerStep: int, cudnnEnabled: bool)

  /** The constructor's defaults: one frame per step, batches left on the CPU. */
  const DefaultCollator := Collator(1, false)

  /** Gradual training changes the reduction factor and nothing else. */
  function SetFramesPerStep(c: Collator, n: int): (r: Collator)
    ensures r.nFramesPerStep == n
    ensures r.cudnnEnabled == c.cudnnEnabled
  {
    c.(nFramesPerStep := n)
  }

  // ---------------------------------------------------------------------
  // Lengths and padding

  function Lengths(rows: seq<seq<int>>): (r: seq<nat>)
    ensures |r| == |rows|
    ensures forall i :: 0 <= i < |rows| ==> r[i] == |rows[i]|
  {
    seq(|rows|, i requires 0 <= i < |rows| => |rows[i]|)
  }

  /** The largest length; 0 for no lengths at all. */
  function MaxLen(lens: seq<nat>): (m: nat)
    ensures forall i :: 0 <= i < |lens| ==> lens[i] <= m
    ensures |lens| > 0 ==> exists i :: 0 <= i < |lens| && lens[i] == m
    ensures |lens| == 0 ==> m == 0
  {
    if |lens| == 0 then 0
    else
      var rest := MaxLen(lens[1..]);
      assert forall i :: 1 <= i < |lens| ==> lens[i] == lens[1..][i - 1];
      if lens[0] >= rest then lens[0] else rest
  }

  /** A zero-filled row of `width` positions with `row` copied to its front. */
  function Pad(row: seq<int>, width: nat): (r: seq<int>)
    requires |row| <= width
    ensures |r| == width
    ensures forall t :: 0 <= t < width ==> r[t] == (if t < |row| then row[t] else 0)
  {
    row + seq(width - |row|, _ => 0)
  }

  /** `padded` holds every row of `rows`, each left-aligned in a zero-filled
      row of exactly `width` positions. */
  ghost predicate LeftAligned(padded: seq<seq<int>>, rows: seq<seq<int>>, width: nat)
  {
    && |padded| == |rows|
    && forall i :: 0 <= i < |rows| ==>
         && |padded[i]| == width
         && forall t :: 0 <= t < width ==>
              padded[i][t] == (if t < |rows[i]| then rows[i][t] else 0)
  }

  /** Pads every row to the longest one. */
  function PadRows(rows: seq<seq<int>>): (r: seq<seq<int>>)
    ensures LeftAligned(r, rows, MaxLen(Lengths(rows)))
  {
    var width := MaxLen(Lengths(rows));
    seq(|rows|, i requires 0 <= i < |rows| => Pad(rows[i], width))
  }

  /** Cuts every padded row back to its recorded length. */
  function Unpad(padded: seq<seq<int>>, lens: seq<nat>): (r: seq<seq<int>>)
    requires |lens| == |padded|
    requires forall i :: 0 <= i < |padded| ==> lens[i] <= |padded[i]|
    ensures |r| == |padded|
    ensures forall i :: 0 <= i < |r| ==> |r[i]| == lens[i]
  {
    seq(|padded|, i requires 0 <= i < |padded| => padded[i][..lens[i]])
  }

  /** Undoing the padding with the true lengths gives back the rows. */
  lemma UnpadLeftAligned(padded: seq<seq<int>>, rows: seq<seq<int>>, width: nat)
    requires LeftAligned(padded, rows, width)
    requires forall i :: 0 <= i < |rows| ==> |rows[i]| <= width
    ensures Unpad(padded, Lengths(rows)) == rows
  {
    var u := Unpad(padded, Lengths(rows));
    forall i | 0 <= i < |rows|
      ensures u[i] == rows[i]
    {
      assert |u[i]| == |rows[i]|;
      forall t | 0 <= t < |rows[i]|
        ensures u[i][t] == rows[i][t]
      {
        assert u[i][t] == padded[i][t];
      }
    }
  }

  // ---------------------------------------------------------------------
  // Gate target

  /** First position that the gate slice starting at the mel's last frame
      (`len - 1` onward) reaches: for a zero-length mel that start is -1,
      which Python reads as the last position. */
  function GateStart(len: nat, width: nat): nat
  {
    if len >= 1 then len - 1
    else if width >= 1 then width - 1
    else 0
  }

  /** A stop-target row: 0 before the last valid frame, 1 from it on. */
  function GateRow(len: nat, width: nat): (g: seq<int>)
    requires len <= width
    ensures |g| == width
    ensures forall t :: 0 <= t < width ==> g[t] == 0 || g[t] == 1
    ensures len >= 1 ==> forall t :: 0 <= t < width ==> (g[t] == 1 <==> t >= len - 1)
    ensures len == 0 ==> forall t :: 0 <= t < width ==> (g[t] == 1 <==> t == width - 1)
  {
    var start := GateStart(len, width);
    var g := seq(width, t requires 0 <= t < width => if t >= start then 1 else 0);
    assert forall t :: 0 <= t < width ==> (g[t] == 1 <==> t >= start);
    g
  }

  // ---------------------------------------------------------------------
  // Mel padding

  function Frames(mels: seq<Mel>): (r: seq<nat>)
    ensures |r| == |mels|
    ensures forall i :: 0 <= i < |mels| ==> r[i] == mels[i].frames
  {
    seq(|mels|, i requires 0 <= i < |mels| => mels[i].frames)
  }

  /** Pads every channel of every mel to the longest mel of the batch. */
  function PadMels(mels: seq<Mel>): (r: seq<seq<seq<int>>>)
    requires forall i :: 0 <= i < |mels| ==> mels[i].Valid()
    ensures |r| == |mels|
    ensures forall i :: 0 <= i < |mels| ==>
              LeftAligned(r[i], mels[i].channels, MaxLen(Frames(mels)))
  {
    var width := MaxLen(Frames(mels));
    seq(|mels|, i requires 0 <= i < |mels| =>
      assert Frames(mels)[i] == mels[i].frames;
      PadMel(mels[i], width))
  }

  /** Pads every channel of one mel to `width` frames. */
  function PadMel(m: Mel, width: nat): (r: seq<seq<int>>)
    requires m.Valid() && m.frames <= width
    ensures LeftAligned(r, m.channels, width)
  {
    seq(|m.channels|, c requires 0 <= c < |m.channels| => Pad(m.channels[c], width))
  }

  function GateRows(mels: seq<Mel>): (r: seq<seq<int>>)
    ensures |r| == |mels|
    ensures forall i :: 0 <= i < |mels| ==>
              r[i] == GateRow(mels[i].frames, MaxLen(Frames(mels)))
  {
    var width := MaxLen(Frames(mels));
    seq(|mels|, i requires 0 <= i < |mels| => GateRow(mels[i].frames, width))
  }

  // ---------------------------------------------------------------------
  // Audio encodings

  function Sum(ns: seq<nat>): nat
  {
    if |ns| == 0 then 0 else ns[0] + Sum(ns[1..])
  }

  /** Concatenation of the rows in order. */
  function Flatten(xs: seq<seq<int>>): (r: seq<int>)
    ensures |r| == Sum(Lengths(xs))
  {
    if |xs| == 0 then []
    else
      assert Lengths(xs)[1..] == Lengths(xs[1..]);
      xs[0] + Flatten(xs[1..])
  }

  lemma {:induction false} FlattenAppend(a: seq<seq<int>>, b: seq<seq<int>>)
    ensures Flatten(a + b) == Flatten(a) + Flatten(b)
  {
    if |a| == 0 {
      assert a + b == b;
    } else {
      assert (a + b)[1..] == a[1..] + b;
      FlattenAppend(a[1..], b);
    }
  }

  /** Row i of the input sits in the concatenation right after the rows
      before it: the concatenation keeps batch order. */
  lemma FlattenSegment(xs: seq<seq<int>>, i: nat)
    requires i < |xs|
    ensures |Flatten(xs[..i])| + |xs[i]| <= |Flatten(xs)|
    ensures Flatten(xs)[|Flatten(xs[..i])| .. |Flatten(xs[..i])| + |xs[i]|] == xs[i]
  {
    var before, after := xs[..i], xs[i + 1..];
    assert xs == before + ([xs[i]] + after);
    FlattenAppend(before, [xs[i]] + after);
    FlattenAppend([xs[i]], after);
    assert Flatten([xs[i]]) == xs[i] by {
      assert [xs[i]][1..] == [];
    }
    var a, b := Flatten(before), Flatten(after);
    assert Flatten(xs) == a + (xs[i] + b);
    MiddleSlice(a, xs[i], b);
  }

  lemma MiddleSlice(a: seq<int>, m: seq<int>, b: seq<int>)
    ensures |a| + |m| <= |a + (m + b)|
    ensures (a + (m + b))[|a|..|a| + |m|] == m
  {
  }

  // ---------------------------------------------------------------------
  // Field extraction

  predicate AllText(batch: seq<Sample>) { forall i :: 0 <= i < |batch| ==> batch[i].text.Some? }
  predicate AllMel(batch: seq<Sample>) { forall i :: 0 <= i < |batch| ==> batch[i].mel.Some? }
  predicate AllF0(batch: seq<Sample>) { forall i :: 0 <= i < |batch| ==> batch[i].f0.Some? }
  predicate AllSpeaker(batch: seq<Sample>) { forall i :: 0 <= i < |batch| ==> batch[i].speakerId.Some? }
  predicate AllGst(batch: seq<Sample>) { forall i :: 0 <= i < |batch| ==> batch[i].gst.Some? }
  predicate AllAudio(batch: seq<Sample>) { forall i :: 0 <= i < |batch| ==> batch[i].audioEncoding.Some? }

  function Texts(batch: seq<Sample>): (r: seq<seq<int>>)
    requires AllText(batch)
    ensures |r| == |batch| && forall i :: 0 <= i < |batch| ==> r[i] == batch[i].text.value
  {
    seq(|batch|, i requires 0 <= i < |batch| => batch[i].text.value)
  }

  function Mels(batch: seq<Sample>): (r: seq<Mel>)
    requires AllMel(batch)
    ensures |r| == |batch| && forall i :: 0 <= i < |batch| ==> r[i] == batch[i].mel.value
  {
    seq(|batch|, i requires 0 <= i < |batch| => batch[i].mel.value)
  }

  function F0s(batch: seq<Sample>): (r: seq<seq<int>>)
    requires AllF0(batch)
    ensures |r| == |batch| && forall i :: 0 <= i < |batch| ==> r[i] == batch[i].f0.value
  {
    seq(|batch|, i requires 0 <= i < |batch| => batch[i].f0.value)
  }

  function AudioEncodings(batch: seq<Sample>): (r: seq<seq<int>>)
    requires AllAudio(batch)
    ensures |r| == |batch| && forall i :: 0 <= i < |batch| ==> r[i] == batch[i].audioEncoding.value
  {
    seq(|batch|, i requires 0 <= i < |batch| => batch[i].audioEncoding.value)
  }

  /** What the collator needs of its input: a non-empty batch in which every
      field of the first sample is present in every sample (a missing one is a
      KeyError), mels well-shaped with the first sample's channel count, and
      style embeddings of one length (so that they stack). */
  predicate WellFormed(batch: seq<Sample>)
  {
    && |batch| >= 1
    && (batch[0].text.Some? ==> AllText(batch))
    && (batch[0].mel.Some? ==>
          && AllMel(batch)
          && forall i :: 0 <= i < |batch| ==>
               batch[i].mel.value.Valid()
               && |batch[i].mel.value.channels| == |batch[0].mel.value.channels|)
    && (batch[0].f0.Some? ==> AllF0(batch))
    && (batch[0].speakerId.Some? ==> AllSpeaker(batch))
    && (batch[0].gst.Some? ==>
          && AllGst(batch)
          && forall i :: 0 <= i < |batch| ==> |batch[i].gst.value| == |batch[0].gst.value|)
    && (batch[0].audioEncoding.Some? ==> AllAudio(batch))
  }

  // ---------------------------------------------------------------------
  // The collator, one field at a time

  /** Text: each token sequence left-aligned in a zero-filled N x (longest
      sequence) tensor, with the true lengths alongside. */
  function CollateText(batch: seq<Sample>): (r: (seq<seq<int>>, seq<nat>))
    requires AllText(batch)
    ensures |r.1| == |batch|
    ensures forall i :: 0 <= i < |batch| ==> r.1[i] == |batch[i].text.value|
    ensures LeftAligned(r.0, Texts(batch), MaxLen(r.1))
  {
    (PadRows(Texts(batch)), Lengths(Texts(batch)))
  }

  /** Mel: every channel padded to the longest mel, the frame counts, and the
      gate target, all sized from the mels before anything else is looked at. */
  function CollateMel(batch: seq<Sample>): (r: (seq<seq<seq<int>>>, seq<nat>, seq<seq<int>>))
    requires AllMel(batch)
    requires forall i :: 0 <= i < |batch| ==> batch[i].mel.value.Valid()
    ensures |r.1| == |batch|
    ensures forall i :: 0 <= i < |batch| ==> r.1[i] == batch[i].mel.value.frames
    ensures |r.0| == |batch|
    ensures forall i :: 0 <= i < |batch| ==>
              LeftAligned(r.0[i], batch[i].mel.value.channels, MaxLen(r.1))
    ensures |r.2| == |batch|
    ensures forall i :: 0 <= i < |batch| ==>
              r.2[i] == GateRow(batch[i].mel.value.frames, MaxLen(r.1))
  {
    var mels := Mels(batch);
    (PadMels(mels), Frames(mels), GateRows(mels))
  }

  /** f0: N x 1 x (longest f0), whatever the mel width is. */
  function CollateF0(batch: seq<Sample>): (r: seq<seq<seq<int>>>)
    requires AllF0(batch)
    ensures |r| == |batch|
    ensures forall i :: 0 <= i < |batch| ==> |r[i]| == 1
    ensures LeftAligned(seq(|batch|, i requires 0 <= i < |batch| => r[i][0]),
                        F0s(batch), MaxLen(Lengths(F0s(batch))))
  {
    var rows := PadRows(F0s(batch));
    var r := seq(|batch|, i requires 0 <= i < |batch| => [rows[i]]);
    assert seq(|batch|, i requires 0 <= i < |batch| => r[i][0]) == rows;
    r
  }

  /** Speaker ids, one per sample, in batch order. */
  function CollateSpeakers(batch: seq<Sample>): (r: seq<int>)
    requires AllSpeaker(batch)
    ensures |r| == |batch|
    ensures forall i :: 0 <= i < |batch| ==> r[i] == batch[i].speakerId.value
  {
    seq(|batch|, i requires 0 <= i < |batch| => batch[i].speakerId.value)
  }

  /** Style embeddings stacked in batch order. */
  function CollateGsts(batch: seq<Sample>): (r: seq<seq<int>>)
    requires AllGst(batch)
    ensures |r| == |batch|
    ensures forall i :: 0 <= i < |batch| ==> r[i] == batch[i].gst.value
  {
    seq(|batch|, i requires 0 <= i < |batch| => batch[i].gst.value)
  }

  /** Collates a batch.  Which fields are produced is decided by the first
      sample alone; every produced tensor is sized to the batch maximum and
      holds each sample left-aligned over zeros.  `c` is not consulted: the
      output does not depend on the frames-per-step setting. */
  function Collate(c: Collator, batch: seq<Sample>): (b: Batch)
    requires WellFormed(batch)
    // presence is decided by batch[0] only
    ensures (b.textPadded.Some? <==> batch[0].text.Some?)
         && (b.inputLengths.Some? <==> batch[0].text.Some?)
    ensures (b.melPadded.Some? <==> batch[0].mel.Some?)
         && (b.gateTarget.Some? <==> batch[0].mel.Some?)
         && (b.outputLengths.Some? <==> batch[0].mel.Some?)
    ensures b.f0.Some? <==> batch[0].f0.Some?
    ensures b.speakerIds.Some? <==> batch[0].speakerId.Some?
    ensures b.gst.Some? <==> batch[0].gst.Some?
    ensures b.audioEncodings.Some? <==> batch[0].audioEncoding.Some?
    // text
    ensures batch[0].text.Some? ==>
              && |b.inputLengths.value| == |batch|
              && (forall i :: 0 <= i < |batch| ==> b.inputLengths.value[i] == |batch[i].text.value|)
              && LeftAligned(b.textPadded.value, Texts(batch), MaxLen(b.inputLengths.value))
    // mel, lengths and gate: sized from the mels alone
    ensures batch[0].mel.Some? ==>
              && |b.outputLengths.value| == |batch|
              && (forall i :: 0 <= i < |batch| ==> b.outputLengths.value[i] == batch[i].mel.value.frames)
              && |b.melPadded.value| == |batch|
              && (forall i :: 0 <= i < |batch| ==>
                    LeftAligned(b.melPadded.value[i], batch[i].mel.value.channels,
                                MaxLen(b.outputLengths.value)))
              && |b.gateTarget.value| == |batch|
              && (forall i :: 0 <= i < |batch| ==>
                    b.gateTarget.value[i] == GateRow(batch[i].mel.value.frames,
                                                     MaxLen(b.outputLengths.value)))
    // f0: N x 1 x (longest f0), independently of the mel width
    ensures batch[0].f0.Some? ==>
              && |b.f0.value| == |batch|
              && (forall i :: 0 <= i < |batch| ==> |b.f0.value[i]| == 1)
              && LeftAligned(seq(|batch|, i requires 0 <= i < |batch| => b.f0.value[i][0]),
                             F0s(batch), MaxLen(Lengths(F0s(batch))))
    // stacked fields, in batch order
    ensures batch[0].speakerId.Some? ==>
              && |b.speakerIds.value| == |batch|
              && forall i :: 0 <= i < |batch| ==> b.speakerIds.value[i] == batch[i].speakerId.value
    ensures batch[0].gst.Some? ==>
              && |b.gst.value| == |batch|
              && forall i :: 0 <= i < |batch| ==> b.gst.value[i] == batch[i].gst.value
    ensures batch[0].audioEncoding.Some? ==>
              && |b.audioEncodings.value| == Sum(Lengths(AudioEncodings(batch)))
              && b.audioEncodings.value == Flatten(AudioEncodings(batch))
  {
    var first := batch[0];
    var text := if first.text.Some? then Some(CollateText(batch)) else None;
    var mel := if first.mel.Some? then Some(CollateMel(batch)) else None;
    Batch(
      textPadded := if text.Some? then Some(text.value.0) else None,
      inputLengths := if text.Some? then Some(text.value.1) else None,
      melPadded := if mel.Some? then Some(mel.value.0) else None,
      gateTarget := if mel.Some? then Some(mel.value.2) else None,
      outputLengths := if mel.Some? then Some(mel.value.1) else None,
      speakerIds := if first.speakerId.Some? then Some(CollateSpeakers(batch)) else None,
      audioEncodings := if first.audioEncoding.Some? then Some(Flatten(AudioEncodings(batch))) else None,
      gst := if first.gst.Some? then Some(CollateGsts(batch)) else None,
      f0 := if first.f0.Some? then Some(CollateF0(batch)) else None)
  }

  // ---------------------------------------------------------------------
  // Properties

  /** Cutting each padded text row to its recorded length gives back the
      samples' token sequences. */
  lemma TextRoundTrip(c: Collator, batch: seq<Sample>)
    requires WellFormed(batch) && batch[0].text.Some?
    ensures var b := Collate(c, batch);
            Unpad(b.textPadded.value, b.inputLengths.value) == Texts(batch)
  {
    var b := Collate(c, batch);
    var rows := Texts(batch);
    assert b.inputLengths.value == Lengths(rows);
    UnpadLeftAligned(b.textPadded.value, rows, MaxLen(Lengths(rows)));
  }

  /** Cutting every channel of each padded mel to the recorded frame count
      gives back the sample's mel. */
  lemma MelRoundTrip(c: Collator, batch: seq<Sample>, i: nat)
    requires WellFormed(batch) && batch[0].mel.Some? && i < |batch|
    ensures var b := Collate(c, batch);
            Unpad(b.melPadded.value[i], seq(|b.melPadded.value[i]|, _ => b.outputLengths.value[i]))
              == batch[i].mel.value.channels
  {
    var b := Collate(c, batch);
    var m := batch[i].mel.value;
    var width := MaxLen(b.outputLengths.value);
    assert m.frames <= width;
    assert seq(|b.melPadded.value[i]|, _ => b.outputLengths.value[i]) == Lengths(m.channels);
    UnpadLeftAligned(b.melPadded.value[i], m.channels, width);
  }

  /** The gate target of each sample with at least one frame is 1 exactly
      from its last valid frame on; with exactly one frame the first position
      is already 1, and every row ends in 1. */
  lemma GateTargetStops(c: Collator, batch: seq<Sample>, i: nat)
    requires WellFormed(batch) && batch[0].mel.Some? && i < |batch|
    requires batch[i].mel.value.frames >= 1
    ensures var b := Collate(c, batch);
            var len := b.outputLengths.value[i];
            var g := b.gateTarget.value[i];
            && |g| >= 1
            && (forall t :: 0 <= t < |g| ==> (g[t] == 1 <==> t >= len - 1))
            && (forall t :: 0 <= t < |g| ==> (g[t] == 0 <==> t < len - 1))
            && (len == 1 ==> g[0] == 1)
            && g[|g| - 1] == 1
  {
    var b := Collate(c, batch);
    assert batch[i].mel.value.frames <= MaxLen(b.outputLengths.value);
  }

  /** The mel, its lengths and the gate target depend on the samples' mels
      only: in particular the f0 width cannot change the mel width. */
  lemma MelIndependentOfOtherFields(c: Collator, c': Collator, batch: seq<Sample>, batch': seq<Sample>)
    requires WellFormed(batch) && WellFormed(batch')
    requires |batch| == |batch'|
    requires forall i :: 0 <= i < |batch| ==> batch[i].mel == batch'[i].mel
    ensures Collate(c, batch).melPadded == Collate(c', batch').melPadded
    ensures Collate(c, batch).gateTarget == Collate(c', batch').gateTarget
    ensures Collate(c, batch).outputLengths == Collate(c', batch').outputLengths
  {
    if batch[0].mel.Some? {
      assert Mels(batch) == Mels(batch');
      assert CollateMel(batch) == CollateMel(batch');
    }
  }

  /** The text fields of a batch whose first sample carries tokens. */
  lemma CollateTextFields(c: Collator, batch: seq<Sample>)
    requires WellFormed(batch) && batch[0].text.Some?
    ensures Collate(c, batch).textPadded == Some(PadRows(Texts(batch)))
    ensures Collate(c, batch).inputLengths == Some(Lengths(Texts(batch)))
  {
  }

  /** The text fields depend on the samples' token sequences only. */
  lemma TextIndependentOfOtherFields(c: Collator, c': Collator, batch: seq<Sample>, batch': seq<Sample>)
    requires WellFormed(batch) && WellFormed(batch')
    requires |batch| == |batch'|
    requires forall i :: 0 <= i < |batch| ==> batch[i].text == batch'[i].text
    ensures Collate(c, batch).textPadded == Collate(c', batch').textPadded
    ensures Collate(c, batch).inputLengths == Collate(c', batch').inputLengths
  {
    assert batch[0].text == batch'[0].text;
    if batch[0].text.Some? {
      var ts, ts' := Texts(batch), Texts(batch');
      assert forall i :: 0 <= i < |ts| ==> ts[i] == ts'[i];
      assert ts == ts';
      CollateTextFields(c, batch);
      CollateTextFields(c', batch');
    }
  }

  /** Changing the frames-per-step setting does not change what is collated:
      there is no rounding of lengths to a multiple of the reduction factor. */
  lemma CollateIgnoresFramesPerStep(c: Collator, n: int, batch: seq<Sample>)
    requires WellFormed(batch)
    ensures Collate(SetFramesPerStep(c, n), batch) == Collate(c, batch)
  {
  }

  /** Audio encodings are concatenated in batch order: sample i's encoding
      follows the encodings of the samples before it. */
  lemma AudioEncodingsInBatchOrder(c: Collator, batch: seq<Sample>, i: nat)
    requires WellFormed(batch) && batch[0].audioEncoding.Some? && i < |batch|
    ensures var a := Collate(c, batch).audioEncodings.value;
            var offset := |Flatten(AudioEncodings(batch)[..i])|;
            && offset + |batch[i].audioEncoding.value| <= |a|
            && a[offset .. offset + |batch[i].audioEncoding.value|] == batch[i].audioEncoding.value
  {
    FlattenSegment(AudioEncodings(batch), i);
  }
}

=== FILE: reduction_window.dfy ===
/** The reduction-window scheduler ("gradual training"): a table of
    (frames per step, batch size, until step) entries consumed in order as
    the global step passes each entry's threshold. */
module ReductionWindow {
  import opened Wrappers
  import opened TrainerState

  /** One schedule entry; `untilStep` None means open-ended. */
  datatype Window = Window(nFramesPerStep: int, batchSize: int, untilStep: Option<int>)

  /** The loop guard tests the threshold for truthiness, so a threshold of 0
      stops the skipping just as None does. */
  predicate Truthy(u: Option<int>)
  {
    u.Some? && u.value != 0
  }

  /** An entry whose threshold has been reached and is skipped by the loop. */
  predicate Exhausted(w: Window, step: int)
  {
    Truthy(w.untilStep) && step >= w.untilStep.value
  }

  /** A schedule whose last entry is open-ended. */
  predicate OpenEnded(schedule: seq<Window>)
  {
    |schedule| > 0 && schedule[|schedule| - 1].untilStep.None?
  }

  /** The first entry at or after `from` that is not exhausted at `step`. */
  function FirstActive(schedule: seq<Window>, from: nat, step: int): (r: Option<nat>)
    decreases |schedule| - from
    ensures r.Some? ==>
              && from <= r.value < |schedule|
              && !Exhausted(schedule[r.value], step)
              && forall k :: from <= k < r.value ==> Exhausted(schedule[k], step)
    ensures r.None? ==> forall k :: from <= k < |schedule| ==> Exhausted(schedule[k], step)
  {
    if from >= |schedule| then None
    else if !Exhausted(schedule[from], step) then Some(from)
    else FirstActive(schedule, from + 1, step)
  }

  /** The trainer after switching to entry `j`: its batch size and reduction
      factor are installed and the loader is rebuilt once. */
  function SwitchTo(t: Trainer, schedule: seq<Window>, j: nat): Trainer
    requires j < |schedule|
  {
    t.(reductionWindowIdx := j,
       batchSize := schedule[j].batchSize,
       nFramesPerStepCurrent := schedule[j].nFramesPerStep,
       loaderBuilds := t.loaderBuilds + 1)
  }

  /** Reference definition of one scheduler check, made at an epoch boundary.
      Indexing outside the schedule is an IndexError, and the only failure:
      an index that is out of range of a non-empty schedule.  A check either
      changes nothing or lands inside the schedule with one loader rebuild. */
  function Adjust(schedule: seq<Window>, t: Trainer): (r: Result<Trainer, TrainError>)
    ensures r.Failure? ==> r.error.ScheduleIndexOutOfRange? && 0 < |schedule| <= r.error.index
    ensures r.Success? ==>
              || r.value == t
              || (r.value.reductionWindowIdx < |schedule| && r.value.loaderBuilds == t.loaderBuilds + 1)
  {
    if |schedule| == 0 then Success(t)
    else if t.reductionWindowIdx >= |schedule| then
      Failure(ScheduleIndexOutOfRange(t.reductionWindowIdx))
    else
      var w := schedule[t.reductionWindowIdx];
      if w.untilStep.None? then Success(t)
      else if t.globalStep < w.untilStep.value then Success(t)
      else
        match FirstActive(schedule, t.reductionWindowIdx, t.globalStep)
        case None => Failure(ScheduleIndexOutOfRange(|schedule|))
        case Some(j) => Success(SwitchTo(t, schedule, j))
  }

  /** The scheduler check as the trainer runs it: skip every exhausted entry
      in one loop, then rebuild the loader once. */
  method AdjustFramesPerStep(schedule: seq<Window>, t: Trainer) returns (r: Result<Trainer, TrainError>)
    ensures r == Adjust(schedule, t)
  {
    if |schedule| == 0 {
      return Success(t);
    }
    if t.reductionWindowIdx >= |schedule| {
      return Failure(ScheduleIndexOutOfRange(t.reductionWindowIdx));
    }
    var idx := t.reductionWindowIdx;
    var settings := schedule[idx];
    if settings.untilStep.None? {
      return Success(t);
    }
    if t.globalStep < settings.untilStep.value {
      return Success(t);
    }
    while Truthy(settings.untilStep) && t.globalStep >= settings.untilStep.value
      invariant t.reductionWindowIdx <= idx < |schedule|
      invariant settings == schedule[idx]
      invariant FirstActive(schedule, t.reductionWindowIdx, t.globalStep)
                == FirstActive(schedule, idx, t.globalStep)
      decreases |schedule| - idx
    {
      if idx + 1 >= |schedule| {
        return Failure(ScheduleIndexOutOfRange(idx + 1));
      }
      idx := idx + 1;
      settings := schedule[idx];
    }
    r := Success(SwitchTo(t, schedule, idx));
  }

  // ---------------------------------------------------------------------
  // Properties

  /** The three no-op cases leave the trainer, and so the loader, untouched. */
  lemma AdjustNoOp(schedule: seq<Window>, t: Trainer)
    requires
      || |schedule| == 0
      || (t.reductionWindowIdx < |schedule| && schedule[t.reductionWindowIdx].untilStep.None?)
      || (t.reductionWindowIdx < |schedule| && schedule[t.reductionWindowIdx].untilStep.Some?
          && t.globalStep < schedule[t.reductionWindowIdx].untilStep.value)
    ensures Adjust(schedule, t) == Success(t)
  {
  }

  /** The index never moves backwards, the loader is rebuilt at most once per
      check, and nothing but the scheduler's own fields changes. */
  lemma AdjustMonotone(schedule: seq<Window>, t: Trainer)
    ensures var r := Adjust(schedule, t);
            r.Success? ==>
              && r.value.reductionWindowIdx >= t.reductionWindowIdx
              && (r.value.loaderBuilds == t.loaderBuilds || r.value.loaderBuilds == t.loaderBuilds + 1)
              && r.value.(batchSize := t.batchSize, nFramesPerStepCurrent := t.nFramesPerStepCurrent,
                          reductionWindowIdx := t.reductionWindowIdx, loaderBuilds := t.loaderBuilds) == t
  {
  }

  /** A transition lands on the first entry from the current one whose
      threshold is None, 0 or above the global step, installs that entry's
      batch size and reduction factor, and rebuilds the loader exactly once
      however many thresholds were passed.  Unless the current threshold is
      0, the index strictly increases. */
  lemma AdjustTransition(schedule: seq<Window>, t: Trainer)
    requires Adjust(schedule, t).Success?
    requires Adjust(schedule, t).value.loaderBuilds != t.loaderBuilds
    ensures var t' := Adjust(schedule, t).value;
            var j := t'.reductionWindowIdx;
            && j < |schedule|
            && t'.loaderBuilds == t.loaderBuilds + 1
            && !Exhausted(schedule[j], t.globalStep)
            && (forall k :: t.reductionWindowIdx <= k < j ==> Exhausted(schedule[k], t.globalStep))
            && t'.batchSize == schedule[j].batchSize
            && t'.nFramesPerStepCurrent == schedule[j].nFramesPerStep
            && (schedule[t.reductionWindowIdx].untilStep != Some(0) ==> j > t.reductionWindowIdx)
  {
  }

  /** With an open-ended last entry the scheduler never indexes past the end
      and the index stays inside the schedule. */
  lemma AdjustStaysInBounds(schedule: seq<Window>, t: Trainer)
    requires OpenEnded(schedule)
    requires t.reductionWindowIdx < |schedule|
    ensures Adjust(schedule, t).Success?
    ensures Adjust(schedule, t).value.reductionWindowIdx < |schedule|
  {
    var last := |schedule| - 1;
    assert !Exhausted(schedule[last], t.globalStep);
  }

  /** Without an open-ended entry, a step past every threshold makes the
      scheduler index past the end of the schedule. */
  lemma AdjustPastEndFails(schedule: seq<Window>, t: Trainer)
    requires t.reductionWindowIdx < |schedule|
    requires forall k :: t.reductionWindowIdx <= k < |schedule| ==> Exhausted(schedule[k], t.globalStep)
    ensures Adjust(schedule, t) == Failure(ScheduleIndexOutOfRange(|schedule|))
  {
    assert FirstActive(schedule, t.reductionWindowIdx, t.globalStep).None?;
  }

  /** Checking again at the same step changes nothing, unless the entry
      reached has threshold 0 (which rebuilds the loader on every check). */
  lemma AdjustIdempotent(schedule: seq<Window>, t: Trainer)
    requires Adjust(schedule, t).Success?
    requires var j := Adjust(schedule, t).value.reductionWindowIdx;
             j < |schedule| ==> schedule[j].untilStep != Some(0)
    ensures Adjust(schedule, Adjust(schedule, t).value) == Adjust(schedule, t)
  {
  }

  /** With threshold 0 the loop never runs, but the loader is rebuilt anyway,
      on every check, without the index moving. */
  lemma ZeroThresholdRebuildsInPlace(schedule: seq<Window>, t: Trainer)
    requires t.reductionWindowIdx < |schedule|
    requires schedule[t.reductionWindowIdx].untilStep == Some(0)
    requires t.globalStep >= 0
    ensures Adjust(schedule, t) == Success(SwitchTo(t, schedule, t.reductionWindowIdx))
  {
  }

  /** The two-entry schedule [(2, 64, 1000), (1, 32, None)]: at step 999
      nothing happens; at step 1000, or at 1500 after a resume, the second
      entry becomes active with one loader rebuild. */
  lemma TwoEntryScheduleExample(t: Trainer)
    requires t.reductionWindowIdx == 0
    ensures var s := [Window(2, 64, Some(1000)), Window(1, 32, None)];
            && Adjust(s, t.(globalStep := 999)) == Success(t.(globalStep := 999))
            && Adjust(s, t.(globalStep := 1000))
                 == Success(t.(globalStep := 1000, reductionWindowIdx := 1, batchSize := 32,
                               nFramesPerStepCurrent := 1, loaderBuilds := t.loaderBuilds + 1))
            && Adjust(s, t.(globalStep := 1500))
                 == Success(t.(globalStep := 1500, reductionWindowIdx := 1, batchSize := 32,
                               nFramesPerStepCurrent := 1, loaderBuilds := t.loaderBuilds + 1))
  {
    var s := [Window(2, 64, Some(1000)), Window(1, 32, None)];
    assert FirstActive(s, 0, 1000) == Some(1);
    assert FirstActive(s, 0, 1500) == Some(1);
  }
}

=== FILE: train_loop.dfy ===
/** The epoch-level bookkeeping of a training run: the scheduler check at
    each epoch boundary, the global step advancing by one per batch, and a
    checkpoint every `epochsPerCheckpoint` epochs.  The steps themselves
    (forward, backward, optimizer) are foreign: each epoch's effect is given
    by `work`. */
module TrainLoop {
  import opened Wrappers
  import opened TrainerState
  import opened ReductionWindow
  import opened Checkpoints

  // ---------------------------------------------------------------------
  // Checkpoint names

  function Digit(d: nat): (c: char)
    requires d < 10
    ensures '0' <= c <= '9'
  {
    (48 + d) as char
  }

  /** Decimal digits of `n`, most significant first, without leading zeros. */
  function NatToString(n: nat): (s: string)
    ensures |s| >= 1
    ensures forall k :: 0 <= k < |s| ==> '0' <= s[k] <= '9'
    ensures n < 10 <==> |s| == 1
    ensures 10 <= n ==> s[0] != '0'
  {
    if n < 10 then [Digit(n)] else NatToString(n / 10) + [Digit(n % 10)]
  }

  /** Python's `str` of an integer. */
  function IntToString(i: int): string
  {
    if i < 0 then "-" + NatToString(-i) else NatToString(i)
  }

  /** The value of a string of decimal digits. */
  function DecimalValue(s: string): nat
  {
    if |s| == 0 then 0
    else
      var c := s[|s| - 1];
      DecimalValue(s[..|s| - 1]) * 10 + (if '0' <= c <= '9' then c as int - 48 else 0)
  }

  /** Reading the digits back gives the number. */
  lemma {:induction false} DecimalRoundTrip(n: nat)
    ensures DecimalValue(NatToString(n)) == n
  {
    var s := NatToString(n);
    if n >= 10 {
      DecimalRoundTrip(n / 10);
      assert s[..|s| - 1] == NatToString(n / 10);
    }
  }

  function CheckpointName(epoch: int): string
  {
    "mellotron_" + IntToString(epoch)
  }

  /** A printed integer starts with a minus sign exactly when it is negative. */
  lemma SignOfIntToString(i: int)
    ensures |IntToString(i)| >= 1
    ensures IntToString(i)[0] == '-' <==> i < 0
  {
  }

  lemma NatToStringInjective(x: nat, y: nat)
    requires NatToString(x) == NatToString(y)
    ensures x == y
  {
    DecimalRoundTrip(x);
    DecimalRoundTrip(y);
  }

  /** Different integers print differently. */
  lemma IntToStringInjective(a: int, b: int)
    requires IntToString(a) == IntToString(b)
    ensures a == b
  {
    SignOfIntToString(a);
    SignOfIntToString(b);
    if a < 0 {
      var sa, sb := IntToString(a), IntToString(b);
      assert sa == "-" + NatToString(-a);
      assert sb == "-" + NatToString(-b);
      assert sa[1..] == NatToString(-a);
      assert sb[1..] == NatToString(-b);
      NatToStringInjective(-a, -b);
    } else {
      NatToStringInjective(a, b);
    }
  }

  /** Different epochs write under different names, so no checkpoint of a
      run overwrites another. */
  lemma CheckpointNamesDistinct(e1: int, e2: int)
    requires e1 != e2
    ensures CheckpointName(e1) != CheckpointName(e2)
  {
    var p := "mellotron_";
    if CheckpointName(e1) == CheckpointName(e2) {
      assert CheckpointName(e1)[|p|..] == IntToString(e1);
      assert CheckpointName(e2)[|p|..] == IntToString(e2);
      IntToStringInjective(e1, e2);
    }
  }

  // ---------------------------------------------------------------------
  // Cadence

  /** Epochs on which a checkpoint is written.  Python's `%` rounds toward
      minus infinity and Dafny's toward a non-negative remainder, but for any
      non-zero divisor both are zero exactly on multiples. */
  predicate SavesOn(epoch: int, epochsPerCheckpoint: int)
    requires epochsPerCheckpoint != 0
  {
    epoch % epochsPerCheckpoint == 0
  }

  /** The epochs of `range(start, epochs)` that write a checkpoint, in order. */
  function CheckpointEpochs(start: int, epochs: int, epochsPerCheckpoint: int): (r: seq<int>)
    requires epochsPerCheckpoint != 0
    decreases epochs - start
    ensures forall e :: e in r <==> start <= e < epochs && SavesOn(e, epochsPerCheckpoint)
    ensures forall j, k :: 0 <= j < k < |r| ==> r[j] < r[k]
  {
    if start >= epochs then []
    else
      var rest := CheckpointEpochs(start + 1, epochs, epochsPerCheckpoint);
      assert forall k :: 0 <= k < |rest| ==> rest[k] in rest && rest[k] > start;
      if SavesOn(start, epochsPerCheckpoint) then [start] + rest else rest
  }

  // ---------------------------------------------------------------------
  // The epoch loop

  /** What one epoch of foreign training work leaves behind: how many
      batches the loader yielded, and the model and optimizer states. */
  datatype EpochWork = EpochWork(batches: nat, model: map<string, seq<int>>, optimizer: map<string, seq<int>>)

  datatype SaveEvent = SaveEvent(epoch: int, checkpoint: SavedCheckpoint)

  datatype RunResult = RunResult(trainer: Trainer, saves: seq<SaveEvent>)

  datatype RunError = TrainFailed(train: TrainError) | CheckpointFailed(checkpoint: CheckpointError)

  /** The arguments the loop hands to save at the end of an epoch. */
  function CheckpointArgs(model: map<string, seq<int>>, optimizer: map<string, seq<int>>,
                          epoch: int, learningRate: real, globalStep: int): map<string, Argument>
  {
    map["model" := Stateful(model),
        "optimizer" := Stateful(optimizer),
        "iteration" := Plain(IntValue(epoch)),
        "learning_rate" := Plain(RealValue(learningRate)),
        "global_step" := Plain(IntValue(globalStep))]
  }

  /** Batches run in epochs `from` up to but excluding `to`. */
  function BatchesBetween(work: int -> EpochWork, from: int, to: int): nat
    decreases to - from
  {
    if from >= to then 0 else work(from).batches + BatchesBetween(work, from + 1, to)
  }

  /** Epochs `epoch` up to `epochs`: scheduler check, the epoch's batches,
      then a checkpoint on the cadence.  The cadence test divides by
      `epochsPerCheckpoint`, so a cadence of 0 fails after the first epoch's
      batches; with no epoch to run nothing divides. */
  function RunEpochs(t: Trainer, schedule: seq<Window>, epoch: int, epochs: int,
                     epochsPerCheckpoint: int, work: int -> EpochWork): (r: Result<RunResult, TrainError>)
    decreases epochs - epoch
    ensures epoch >= epochs ==> r == Success(RunResult(t, []))
    ensures r.Failure? ==> r.error.ScheduleIndexOutOfRange? || r.error == ZeroDivision
    ensures epoch < epochs && epochsPerCheckpoint == 0 ==>
              r == (if Adjust(schedule, t).Success? then Failure(ZeroDivision) else Failure(Adjust(schedule, t).error))
    ensures r.Success? && epoch < epochs ==> |r.value.saves| <= epochs - epoch
  {
    if epoch >= epochs then Success(RunResult(t, []))
    else
      match Adjust(schedule, t)
      case Failure(e) => Failure(e)
      case Success(t1) =>
        var t2 := t1.(globalStep := t1.globalStep + work(epoch).batches);
        if epochsPerCheckpoint == 0 then Failure(ZeroDivision)
        else
          match RunEpochs(t2, schedule, epoch + 1, epochs, epochsPerCheckpoint, work)
          case Failure(e) => Failure(e)
          case Success(rest) =>
            Success(RunResult(rest.trainer, EpochSaves(t2, epoch, epochsPerCheckpoint, work) + rest.saves))
  }

  /** The checkpoint written at the end of epoch `epoch` by trainer `t2`:
      one on the cadence and on the primary process, none otherwise. */
  function EpochSaves(t2: Trainer, epoch: int, epochsPerCheckpoint: int, work: int -> EpochWork): (r: seq<SaveEvent>)
    requires epochsPerCheckpoint != 0
    ensures |r| == (if SavesOn(epoch, epochsPerCheckpoint) && IsPrimary(t2.rank) then 1 else 0)
    ensures forall k :: 0 <= k < |r| ==> r[k].epoch == epoch
  {
    var save :=
      if SavesOn(epoch, epochsPerCheckpoint)
      then SaveCheckpoint(t2, CheckpointName(epoch),
                          CheckpointArgs(work(epoch).model, work(epoch).optimizer,
                                         epoch, t2.learningRate, t2.globalStep))
      else None;
    if save.Some? then [SaveEvent(epoch, save.value)] else []
  }

  function SavedEpochs(saves: seq<SaveEvent>): (r: seq<int>)
    ensures |r| == |saves|
    ensures forall k :: 0 <= k < |saves| ==> r[k] == saves[k].epoch
  {
    seq(|saves|, k requires 0 <= k < |saves| => saves[k].epoch)
  }

  /** The checkpoint written at the end of epoch `ev.epoch` of a run that
      started from trainer `t` at epoch `start`. */
  ghost predicate WrittenAfterEpoch(ev: SaveEvent, t: Trainer, start: int, work: int -> EpochWork)
  {
    && ev.checkpoint.path == JoinPath(t.checkpointPath, CheckpointName(ev.epoch) + ".pt")
    && LoopCheckpoint(ev.checkpoint.contents, work(ev.epoch).model, work(ev.epoch).optimizer,
                      ev.epoch, t.learningRate, t.globalStep + BatchesBetween(work, start, ev.epoch + 1))
  }

  /** The trainer an epoch ends with, once the scheduler check succeeded. */
  function AfterEpoch(schedule: seq<Window>, t: Trainer, batches: nat): Trainer
    requires Adjust(schedule, t).Success?
  {
    var t1 := Adjust(schedule, t).value;
    t1.(globalStep := t1.globalStep + batches)
  }

  /** One epoch of a successful run: the check succeeds, only the scheduler's
      fields and the global step move, and the run continues from there. */
  lemma RunStep(t: Trainer, schedule: seq<Window>, epoch: int, epochs: int,
                epochsPerCheckpoint: int, work: int -> EpochWork)
    requires epochsPerCheckpoint != 0 && epoch < epochs
    requires RunEpochs(t, schedule, epoch, epochs, epochsPerCheckpoint, work).Success?
    ensures Adjust(schedule, t).Success?
    ensures var t2 := AfterEpoch(schedule, t, work(epoch).batches);
            && t2.learningRate == t.learningRate
            && t2.rank == t.rank
            && t2.checkpointPath == t.checkpointPath
            && t2.globalStep == t.globalStep + work(epoch).batches
            && RunEpochs(t2, schedule, epoch + 1, epochs, epochsPerCheckpoint, work).Success?
            && var rest := RunEpochs(t2, schedule, epoch + 1, epochs, epochsPerCheckpoint, work).value;
               var r := RunEpochs(t, schedule, epoch, epochs, epochsPerCheckpoint, work).value;
               && r.trainer == rest.trainer
               && r.saves == EpochSaves(t2, epoch, epochsPerCheckpoint, work) + rest.saves
  {
    assert Adjust(schedule, t).Success?;
    AfterEpochKeeps(schedule, t, work(epoch).batches);
    RunEpochsUnfold(t, schedule, epoch, epochs, epochsPerCheckpoint, work);
  }

  /** The loop one epoch at a time, once the scheduler check succeeded. */
  lemma RunEpochsUnfold(t: Trainer, schedule: seq<Window>, epoch: int, epochs: int,
                        epochsPerCheckpoint: int, work: int -> EpochWork)
    requires epochsPerCheckpoint != 0 && epoch < epochs
    requires Adjust(schedule, t).Success?
    ensures var t2 := AfterEpoch(schedule, t, work(epoch).batches);
            var rest := RunEpochs(t2, schedule, epoch + 1, epochs, epochsPerCheckpoint, work);
            && (rest.Failure? ==> RunEpochs(t, schedule, epoch, epochs, epochsPerCheckpoint, work) == rest)
            && (rest.Success? ==>
                  RunEpochs(t, schedule, epoch, epochs, epochsPerCheckpoint, work)
                  == Success(RunResult(rest.value.trainer,
                                       EpochSaves(t2, epoch, epochsPerCheckpoint, work) + rest.value.saves)))
  {
    var t2 := AfterEpoch(schedule, t, work(epoch).batches);
    assert t2 == Adjust(schedule, t).value.(globalStep := Adjust(schedule, t).value.globalStep + work(epoch).batches);
  }

  /** An epoch moves only the scheduler's fields and the global step. */
  lemma AfterEpochKeeps(schedule: seq<Window>, t: Trainer, batches: nat)
    requires Adjust(schedule, t).Success?
    ensures var t2 := AfterEpoch(schedule, t, batches);
            && t2.learningRate == t.learningRate
            && t2.rank == t.rank
            && t2.checkpointPath == t.checkpointPath
            && t2.globalStep == t.globalStep + batches
  {
    AdjustMonotone(schedule, t);
  }

  /** The learning rate, rank and checkpoint directory survive a run, and the
      global step advances by one per batch. */
  lemma {:induction false} RunTrainer(t: Trainer, schedule: seq<Window>, epoch: int, epochs: int,
                                      epochsPerCheckpoint: int, work: int -> EpochWork)
    requires epochsPerCheckpoint != 0
    requires RunEpochs(t, schedule, epoch, epochs, epochsPerCheckpoint, work).Success?
    ensures var r := RunEpochs(t, schedule, epoch, epochs, epochsPerCheckpoint, work).value;
            && r.trainer.learningRate == t.learningRate
            && r.trainer.rank == t.rank
            && r.trainer.checkpointPath == t.checkpointPath
            && r.trainer.globalStep == t.globalStep + BatchesBetween(work, epoch, epochs)
    decreases epochs - epoch
  {
    if epoch < epochs {
      RunStep(t, schedule, epoch, epochs, epochsPerCheckpoint, work);
      RunTrainer(AfterEpoch(schedule, t, work(epoch).batches), schedule, epoch + 1, epochs, epochsPerCheckpoint, work);
    }
  }

  lemma SavedEpochsAppend(a: seq<SaveEvent>, b: seq<SaveEvent>)
    ensures SavedEpochs(a + b) == SavedEpochs(a) + SavedEpochs(b)
  {
    var l, r := SavedEpochs(a + b), SavedEpochs(a) + SavedEpochs(b);
    assert forall k :: 0 <= k < |l| ==> l[k] == r[k];
  }

  /** A run on the primary process writes on exactly the cadence epochs, in
      order; any other process writes nothing. */
  lemma {:induction false} RunSaveEpochs(t: Trainer, schedule: seq<Window>, epoch: int, epochs: int,
                                         epochsPerCheckpoint: int, work: int -> EpochWork)
    requires epochsPerCheckpoint != 0
    requires RunEpochs(t, schedule, epoch, epochs, epochsPerCheckpoint, work).Success?
    ensures var r := RunEpochs(t, schedule, epoch, epochs, epochsPerCheckpoint, work).value;
            && (IsPrimary(t.rank) ==> SavedEpochs(r.saves) == CheckpointEpochs(epoch, epochs, epochsPerCheckpoint))
            && (!IsPrimary(t.rank) ==> r.saves == [])
            && (forall k :: 0 <= k < |r.saves| ==> epoch <= r.saves[k].epoch < epochs)
    decreases epochs - epoch
  {
    if epoch < epochs {
      RunStep(t, schedule, epoch, epochs, epochsPerCheckpoint, work);
      var t2 := AfterEpoch(schedule, t, work(epoch).batches);
      RunSaveEpochs(t2, schedule, epoch + 1, epochs, epochsPerCheckpoint, work);
      var rest := RunEpochs(t2, schedule, epoch + 1, epochs, epochsPerCheckpoint, work).value;
      var r := RunEpochs(t, schedule, epoch, epochs, epochsPerCheckpoint, work).value;
      var head := EpochSaves(t2, epoch, epochsPerCheckpoint, work);
      SavedEpochsAppend(head, rest.saves);
      assert SavedEpochs(head) == (if SavesOn(epoch, epochsPerCheckpoint) && IsPrimary(t.rank) then [epoch] else []);
      assert CheckpointEpochs(epoch, epochs, epochsPerCheckpoint)
             == (if SavesOn(epoch, epochsPerCheckpoint) then [epoch] else [])
                + CheckpointEpochs(epoch + 1, epochs, epochsPerCheckpoint);
    }
  }

  /** A checkpoint written later in the run, seen from one epoch earlier. */
  lemma WrittenEarlier(ev: SaveEvent, t: Trainer, t2: Trainer, epoch: int, work: int -> EpochWork)
    requires WrittenAfterEpoch(ev, t2, epoch + 1, work) && epoch + 1 <= ev.epoch
    requires t2.checkpointPath == t.checkpointPath && t2.learningRate == t.learningRate
    requires t2.globalStep == t.globalStep + work(epoch).batches
    ensures WrittenAfterEpoch(ev, t, epoch, work)
  {
    BatchesSplitFront(work, epoch, ev.epoch + 1);
  }

  /** The checkpoint written at the end of the run's first epoch. */
  lemma FirstEpochWritten(t: Trainer, t2: Trainer, epoch: int, work: int -> EpochWork)
    requires IsPrimary(t2.rank)
    requires t2.checkpointPath == t.checkpointPath && t2.learningRate == t.learningRate
    requires t2.globalStep == t.globalStep + work(epoch).batches
    ensures var s := SaveCheckpoint(t2, CheckpointName(epoch),
                                    CheckpointArgs(work(epoch).model, work(epoch).optimizer,
                                                   epoch, t.learningRate, t2.globalStep));
            s.Some? && WrittenAfterEpoch(SaveEvent(epoch, s.value), t, epoch, work)
  {
    assert BatchesBetween(work, epoch, epoch + 1) == work(epoch).batches;
    SavedContents(t2, CheckpointName(epoch), work(epoch).model, work(epoch).optimizer,
                  epoch, t.learningRate, t2.globalStep);
  }

  /** Every checkpoint of a run holds that epoch's model and optimizer state,
      the epoch, the run's learning rate and the global step reached at the
      end of that epoch, under `mellotron_<epoch>.pt`. */
  lemma {:induction false} RunSaveContents(t: Trainer, schedule: seq<Window>, epoch: int, epochs: int,
                                           epochsPerCheckpoint: int, work: int -> EpochWork)
    requires epochsPerCheckpoint != 0
    requires RunEpochs(t, schedule, epoch, epochs, epochsPerCheckpoint, work).Success?
    ensures var r := RunEpochs(t, schedule, epoch, epochs, epochsPerCheckpoint, work).value;
            forall k :: 0 <= k < |r.saves| ==> WrittenAfterEpoch(r.saves[k], t, epoch, work)
    decreases epochs - epoch
  {
    if epoch < epochs {
      RunStep(t, schedule, epoch, epochs, epochsPerCheckpoint, work);
      var t2 := AfterEpoch(schedule, t, work(epoch).batches);
      RunSaveContents(t2, schedule, epoch + 1, epochs, epochsPerCheckpoint, work);
      RunSaveEpochs(t2, schedule, epoch + 1, epochs, epochsPerCheckpoint, work);
      var rest := RunEpochs(t2, schedule, epoch + 1, epochs, epochsPerCheckpoint, work).value;
      var r := RunEpochs(t, schedule, epoch, epochs, epochsPerCheckpoint, work).value;
      forall k | 0 <= k < |rest.saves|
        ensures WrittenAfterEpoch(rest.saves[k], t, epoch, work)
      {
        WrittenEarlier(rest.saves[k], t, t2, epoch, work);
      }
      if SavesOn(epoch, epochsPerCheckpoint) && IsPrimary(t.rank) {
        FirstEpochWritten(t, t2, epoch, work);
        assert r.saves[1..] == rest.saves;
      }
    }
  }

  lemma BatchesSplitFront(work: int -> EpochWork, from: int, to: int)
    requires from < to
    ensures BatchesBetween(work, from, to) == work(from).batches + BatchesBetween(work, from + 1, to)
  {
  }

  /** The loss's gate weight.  The constructor reads `self.pos_weight` before
      it has assigned it whenever the weight is not None, so it raises
      AttributeError for every weight except None. */
  datatype GateLoss = GateLoss(posWeight: Option<real>)

  function NewLoss(posWeight: Option<real>): (r: Result<GateLoss, TrainError>)
    ensures r.Success? <==> posWeight.None?
    ensures r.Success? ==> r.value.posWeight == posWeight
    ensures r.Failure? ==> r.error == MissingAttribute("pos_weight")
  {
    if posWeight.Some? then Failure(MissingAttribute("pos_weight")) else Success(GateLoss(None))
  }

  /** Distributed start-up lacks a rank or world size. */
  predicate StartUpFails(t: Trainer)
  {
    t.distributedRun && (t.rank.None? || t.worldSize.None?)
  }

  /** Where the epoch loop starts: the trainer once the loader is built
      and, when a checkpoint was loaded, warm started from it, together
      with the epoch counter. */
  function Started(t: Trainer, model: Network, optimizer: Optimizer, loaded: Option<map<string, Value>>)
    : (r: Result<(Trainer, int), CheckpointError>)
    ensures loaded.None? ==> r == Success((t.(loaderBuilds := t.loaderBuilds + 1), 0))
    ensures r.Failure? <==> loaded.Some? && WarmStart(t.(loaderBuilds := t.loaderBuilds + 1), model, optimizer, loaded.value, 0).Failure?
    ensures r.Success? ==> r.value.1 == StartEpoch(loaded)
    ensures r.Success? ==> r.value.0.loaderBuilds == t.loaderBuilds + 1 && r.value.0.rank == t.rank
  {
    var t0 := t.(loaderBuilds := t.loaderBuilds + 1);
    if loaded.Some?
    then match WarmStart(t0, model, optimizer, loaded.value, 0)
         case Failure(e) => Failure(e)
         case Success(w) => Success((w.trainer, w.startEpoch))
    else Success((t0, 0))
  }

  /** The whole run: build the loader (joining the process group first in a
      distributed run), build the loss, optionally warm start from a loaded
      checkpoint, then run the epochs from the restored epoch counter.  Each
      failure stops the run at the step that raises it. */
  function Train(t: Trainer, model: Network, optimizer: Optimizer, loaded: Option<map<string, Value>>,
                 posWeight: Option<real>, schedule: seq<Window>, epochs: int, epochsPerCheckpoint: int,
                 work: int -> EpochWork): (r: Result<RunResult, RunError>)
    ensures StartUpFails(t) ==> r == Failure(TrainFailed(MissingRankOrWorldSize))
    ensures !StartUpFails(t) && posWeight.Some? ==> r == Failure(TrainFailed(MissingAttribute("pos_weight")))
    ensures !StartUpFails(t) && posWeight.None? && loaded.Some? && WeightsKey(loaded.value).None? ==>
              r == Failure(CheckpointFailed(MissingKey("state_dict")))
    ensures !StartUpFails(t) && posWeight.None? && epochsPerCheckpoint == 0
            && Started(t, model, optimizer, loaded).Success?
            && StartEpoch(loaded) < epochs
            && Adjust(schedule, Started(t, model, optimizer, loaded).value.0).Success? ==>
              r == Failure(TrainFailed(ZeroDivision))
    ensures r.Success? && StartEpoch(loaded) < epochs ==> epochsPerCheckpoint != 0
  {
    match InitDistributed(t)
    case Failure(e) => Failure(TrainFailed(e))
    case Success(_) =>
      match NewLoss(posWeight)
      case Failure(e) => Failure(TrainFailed(e))
      case Success(_) =>
        match Started(t, model, optimizer, loaded)
        case Failure(e) => Failure(CheckpointFailed(e))
        case Success(s) =>
          match RunEpochs(s.0, schedule, s.1, epochs, epochsPerCheckpoint, work)
          case Failure(e) => Failure(TrainFailed(e))
          case Success(run) => Success(run)
  }

  /** The epoch counter a run starts from: the checkpoint's "iteration"
      when warm starting from one that has it, otherwise 0. */
  function StartEpoch(loaded: Option<map<string, Value>>): int
  {
    if loaded.Some? && "iteration" in loaded.value && loaded.value["iteration"].IntValue?
    then loaded.value["iteration"].i
    else 0
  }

  /** A successful run on the primary process writes checkpoints on exactly
      the cadence epochs from the start epoch to the last epoch. */
  lemma TrainCadence(t: Trainer, model: Network, optimizer: Optimizer, loaded: Option<map<string, Value>>,
                     posWeight: Option<real>, schedule: seq<Window>, epochs: int, epochsPerCheckpoint: int,
                     work: int -> EpochWork)
    requires epochsPerCheckpoint != 0
    requires Train(t, model, optimizer, loaded, posWeight, schedule, epochs, epochsPerCheckpoint, work).Success?
    requires IsPrimary(t.rank)
    ensures SavedEpochs(Train(t, model, optimizer, loaded, posWeight, schedule, epochs, epochsPerCheckpoint, work).value.saves)
            == CheckpointEpochs(StartEpoch(loaded), epochs, epochsPerCheckpoint)
  {
    var t0 := t.(loaderBuilds := t.loaderBuilds + 1);
    if loaded.Some? {
      var w := WarmStart(t0, model, optimizer, loaded.value, 0).value;
      RunSaveEpochs(w.trainer, schedule, w.startEpoch, epochs, epochsPerCheckpoint, work);
    } else {
      RunSaveEpochs(t0, schedule, 0, epochs, epochsPerCheckpoint, work);
    }
  }

  // ---------------------------------------------------------------------
  // Round trip

  /** The five fields the loop writes into each checkpoint. */
  ghost predicate LoopCheckpoint(c: map<string, Value>, model: map<string, seq<int>>,
                                 optimizer: map<string, seq<int>>, epoch: int,
                                 learningRate: real, globalStep: int)
  {
    && c.Keys == {"model", "optimizer", "iteration", "learning_rate", "global_step"}
    && c["model"] == StateDict(model)
    && c["optimizer"] == StateDict(optimizer)
    && c["iteration"] == IntValue(epoch)
    && c["learning_rate"] == RealValue(learningRate)
    && c["global_step"] == IntValue(globalStep)
  }

  /** The names save stores for the loop's arguments. */
  lemma SavedKeys(t: Trainer, name: string, model: map<string, seq<int>>,
                  optimizer: map<string, seq<int>>, epoch: int, learningRate: real, globalStep: int)
    requires IsPrimary(t.rank)
    ensures SaveCheckpoint(t, name, CheckpointArgs(model, optimizer, epoch, learningRate, globalStep)).value.contents.Keys
            == {"model", "optimizer", "iteration", "learning_rate", "global_step"}
  {
  }

  /** What save stores for the loop's arguments on the primary process. */
  lemma SavedContents(t: Trainer, name: string, model: map<string, seq<int>>,
                      optimizer: map<string, seq<int>>, epoch: int, learningRate: real, globalStep: int)
    requires IsPrimary(t.rank)
    ensures var saved := SaveCheckpoint(t, name, CheckpointArgs(model, optimizer, epoch, learningRate, globalStep));
            && saved.Some?
            && LoopCheckpoint(saved.value.contents, model, optimizer, epoch, learningRate, globalStep)
  {
    SavedKeys(t, name, model, optimizer, epoch, learningRate, globalStep);
    var args := CheckpointArgs(model, optimizer, epoch, learningRate, globalStep);
    assert args["model"] == Stateful(model);
    assert args["optimizer"] == Stateful(optimizer);
    assert args["iteration"] == Plain(IntValue(epoch));
    assert args["learning_rate"] == Plain(RealValue(learningRate));
    assert args["global_step"] == Plain(IntValue(globalStep));
  }

  /** Warm start from the five-field checkpoint the loop writes. */
  lemma WarmStartFromLoopCheckpoint(t': Trainer, net: Network, opt: Optimizer, startEpoch: int,
                                    c: map<string, Value>, model: map<string, seq<int>>,
                                    optimizer: map<string, seq<int>>,
                                    epoch: int, learningRate: real, globalStep: int)
    requires LoopCheckpoint(c, model, optimizer, epoch, learningRate, globalStep)
    ensures var r := WarmStart(t', net, opt, c, startEpoch);
            && r.Success?
            && r.value.startEpoch == epoch
            && r.value.trainer.globalStep == globalStep
            && r.value.trainer.learningRate == learningRate
            && r.value.optimizer.lr == learningRate
            && r.value.model.weights == model
            && r.value.optimizer.state == optimizer
  {
    assert "model" in c;
    assert WeightsKey(c) == Some("model");
    assert WellTyped(c);
  }

  /** Saving the loop's checkpoint arguments and warm starting from the
      result restores the epoch counter, global step, learning rate (into the
      trainer and the optimizer), model weights and optimizer state. */
  lemma SaveThenWarmStart(t: Trainer, name: string, model: map<string, seq<int>>,
                          optimizer: map<string, seq<int>>, epoch: int,
                          t': Trainer, net: Network, opt: Optimizer, startEpoch: int)
    requires IsPrimary(t.rank)
    ensures var saved := SaveCheckpoint(t, name, CheckpointArgs(model, optimizer, epoch, t.learningRate, t.globalStep));
            && saved.Some?
            && var r := WarmStart(t', net, opt, saved.value.contents, startEpoch);
               && r.Success?
               && r.value.startEpoch == epoch
               && r.value.trainer.globalStep == t.globalStep
               && r.value.trainer.learningRate == t.learningRate
               && r.value.optimizer.lr == t.learningRate
               && r.value.model.weights == model
               && r.value.optimizer.state == optimizer
  {
    SavedContents(t, name, model, optimizer, epoch, t.learningRate, t.globalStep);
    var saved := SaveCheckpoint(t, name, CheckpointArgs(model, optimizer, epoch, t.learningRate, t.globalStep));
    WarmStartFromLoopCheckpoint(t', net, opt, startEpoch, saved.value.contents, model, optimizer,
                                epoch, t.learningRate, t.globalStep);
  }

  /** Warm starting from a checkpoint written at the end of an epoch. */
  lemma ResumeFromWritten(ev: SaveEvent, t: Trainer, epoch: int, work: int -> EpochWork,
                          t': Trainer, net: Network, opt: Optimizer)
    requires WrittenAfterEpoch(ev, t, epoch, work)
    ensures var r := WarmStart(t', net, opt, ev.checkpoint.contents, 0);
            && r.Success?
            && r.value.startEpoch == ev.epoch
            && r.value.trainer.globalStep == t.globalStep + BatchesBetween(work, epoch, ev.epoch + 1)
            && r.value.trainer.learningRate == t.learningRate
            && r.value.model.weights == work(ev.epoch).model
            && r.value.optimizer.state == work(ev.epoch).optimizer
  {
    WarmStartFromLoopCheckpoint(t', net, opt, 0, ev.checkpoint.contents, work(ev.epoch).model,
                                work(ev.epoch).optimizer, ev.epoch, t.learningRate,
                                t.globalStep + BatchesBetween(work, epoch, ev.epoch + 1));
  }

  /** Every checkpoint a run writes can be resumed from: warm starting from
      it gives back its epoch as the start epoch, the global step reached at
      the end of that epoch, the run's learning rate and the epoch's model
      and optimizer states. */
  lemma ResumeFromRunCheckpoint(t: Trainer, schedule: seq<Window>, epoch: int, epochs: int,
                                epochsPerCheckpoint: int, work: int -> EpochWork, k: nat,
                                t': Trainer, net: Network, opt: Optimizer)
    requires epochsPerCheckpoint != 0
    requires RunEpochs(t, schedule, epoch, epochs, epochsPerCheckpoint, work).Success?
    requires k < |RunEpochs(t, schedule, epoch, epochs, epochsPerCheckpoint, work).value.saves|
    ensures var ev := RunEpochs(t, schedule, epoch, epochs, epochsPerCheckpoint, work).value.saves[k];
            var r := WarmStart(t', net, opt, ev.checkpoint.contents, 0);
            && r.Success?
            && r.value.startEpoch == ev.epoch
            && r.value.trainer.globalStep == t.globalStep + BatchesBetween(work, epoch, ev.epoch + 1)
            && r.value.trainer.learningRate == t.learningRate
            && r.value.model.weights == work(ev.epoch).model
            && r.value.optimizer.state == work(ev.epoch).optimizer
  {
    var saves := RunEpochs(t, schedule, epoch, epochs, epochsPerCheckpoint, work).value.saves;
    RunSaveContents(t, schedule, epoch, epochs, epochsPerCheckpoint, work);
    ResumeFromWritten(saves[k], t, epoch, work, t', net, opt);
  }
}

=== FILE: trainer_state.dfy ===
/** The trainer's bookkeeping state and the small decisions made from it:
    which process may write, and whether distributed start-up may proceed. */
module TrainerState {
  import opened Wrappers

  /** The mutable fields of a trainer that the modelled operations read or
      write.  `loaderBuilds` counts how often the data loader, sampler and
      collate function were (re)built: loader construction itself is opaque. */
  datatype Trainer = Trainer(
    rank: Option<int>,
    worldSize: Option<int>,
    distributedRun: bool,
    checkpointPath: string,
    globalStep: int,
    learningRate: real,
    batchSize: int,
    nFramesPerStepCurrent: int,
    reductionWindowIdx: nat,
    loaderBuilds: nat)

  /** Errors the trainer raises.  `UnsupportedAlgorithm` is the failure of
      `raise NotImplemented` for an unknown synthesis algorithm: that constant
      is not an exception class, so Python raises a TypeError there.
      `MissingAttribute` is an AttributeError, `ZeroDivision` a
      ZeroDivisionError from `%`. */
  datatype TrainError =
    | MissingRankOrWorldSize
    | UnsupportedAlgorithm
    | ScheduleIndexOutOfRange(index: nat)
    | MissingAttribute(name: string)
    | ZeroDivision

  /** Only the primary process writes logs, samples audio and saves
      checkpoints: a process without a rank counts as primary. */
  predicate IsPrimary(rank: Option<int>)
  {
    rank.None? || rank.value == 0
  }

  /** The process group that start-up would join; joining itself is I/O. */
  datatype ProcessGroup = ProcessGroup(backend: string, initMethod: string, rank: int, worldSize: int, device: int)

  /** Distributed start-up: nothing to do in a single-process run, a
      configuration error when rank or world size is unknown, otherwise the
      group to join, with the process's device selected by its rank. */
  function InitDistributed(t: Trainer): (r: Result<Option<ProcessGroup>, TrainError>)
    ensures !t.distributedRun ==> r == Success(None)
    ensures r.Failure? <==> t.distributedRun && (t.rank.None? || t.worldSize.None?)
    ensures r.Failure? ==> r.error == MissingRankOrWorldSize
    ensures t.distributedRun && r.Success? ==>
              && r.value.Some?
              && r.value.value.rank == t.rank.value
              && r.value.value.worldSize == t.worldSize.value
              && r.value.value.device == t.rank.value
  {
    if !t.distributedRun then Success(None)
    else if t.rank.None? || t.worldSize.None? then Failure(MissingRankOrWorldSize)
    else Success(Some(ProcessGroup("nccl", "tcp://localhost:54321", t.rank.value, t.worldSize.value, t.rank.value)))
  }

  /** What a log call may carry; images, figures and audio are opaque. */
  datatype Payload = Audio(audio: seq<int>) | Scalar(scalar: real) | Image(image: seq<int>) | Figure(figure: seq<int>)

  datatype LogEvent = LogEvent(tag: string, step: int, payload: Payload)

  function Present<T>(o: Option<T>): nat
  {
    if o.Some? then 1 else 0
  }

  /** One log call: nothing on a non-primary process; otherwise one event per
      supplied payload, each under the given tag and step, in the order audio,
      scalar, image, figure. */
  function Log(t: Trainer, tag: string, step: int, scalar: Option<real>, audio: Option<seq<int>>,
               image: Option<seq<int>>, figure: Option<seq<int>>): (r: seq<LogEvent>)
    ensures !IsPrimary(t.rank) ==> r == []
    ensures IsPrimary(t.rank) ==>
              |r| == Present(audio) + Present(scalar) + Present(image) + Present(figure)
    ensures forall k :: 0 <= k < |r| ==> r[k].tag == tag && r[k].step == step
    ensures IsPrimary(t.rank) && audio.Some? ==> r[0] == LogEvent(tag, step, Audio(audio.value))
    ensures IsPrimary(t.rank) && figure.Some? ==> r[|r| - 1] == LogEvent(tag, step, Figure(figure.value))
    ensures scalar.Some? && IsPrimary(t.rank) ==> LogEvent(tag, step, Scalar(scalar.value)) in r
    ensures image.Some? && IsPrimary(t.rank) ==> LogEvent(tag, step, Image(image.value)) in r
    ensures IsPrimary(t.rank) && scalar.Some? ==>
              r[Present(audio)] == LogEvent(tag, step, Scalar(scalar.value))
    ensures IsPrimary(t.rank) && image.Some? ==>
              r[Present(audio) + Present(scalar)] == LogEvent(tag, step, Image(image.value))
  {
    if !IsPrimary(t.rank) then []
    else
      (if audio.Some? then [LogEvent(tag, step, Audio(audio.value))] else [])
      + (if scalar.Some? then [LogEvent(tag, step, Scalar(scalar.value))] else [])
      + (if image.Some? then [LogEvent(tag, step, Image(image.value))] else [])
      + (if figure.Some? then [LogEvent(tag, step, Figure(figure.value))] else [])
  }

  /** Audio synthesised by Griffin-Lim from a mel; the synthesis is foreign,
      so the result only records its input. */
  datatype Synthesis = GriffinLim(mel: seq<seq<int>>)

  /** Sampling audio: nothing on a non-primary process, Griffin-Lim when
      asked for it, and an error for any other algorithm. */
  function SampleAudio(t: Trainer, mel: seq<seq<int>>, algorithm: string): (r: Result<Option<Synthesis>, TrainError>)
    ensures !IsPrimary(t.rank) ==> r == Success(None)
    ensures IsPrimary(t.rank) ==>
              (r.Success? <==> algorithm == "griffin-lim")
    ensures IsPrimary(t.rank) && algorithm == "griffin-lim" ==> r.Success? && r.value.Some?
    ensures r.Success? && r.value.Some? ==> r.value.value.mel == mel && IsPrimary(t.rank)
  {
    if !IsPrimary(t.rank) then Success(None)
    else if algorithm == "griffin-lim" then Success(Some(GriffinLim(mel)))
    else Failure(UnsupportedAlgorithm)
  }
}

=== FILE: wrappers.dfy ===
/** Optional values and error-carrying results, used for the collator's
    absent fields and for the trainer's failure paths. */
module Wrappers {

  /** A value that may be absent; `None` plays the role of Python's `None`. */
  datatype Option<+T> = None | Some(value: T)

  /** Either a successful value or the error the source would raise. */
  datatype Result<+T, +E> = Success(value: T) | Failure(error: E)
}
